=== FILE: README.md ===
# meteor-desktop skeleton: a Dafny model of the decision logic

This project models the decision logic of the skeleton application of
meteor-desktop (`skeleton/app.js`): the Electron main-process object that loads
plugins and modules, starts the local server that serves the Meteor bundle,
shows the main window, maps `meteor://desktop/...` requests to the local
server, and switches to a new bundle version delivered by hot code push
(HCP). The model is written as pure functions over immutable data. Every side
effect (showing the window, relaunching, notifying the events bus) is
returned as a value of `Effects.Action`, in the order it happens. Effects
deferred with `setImmediate` come after the synchronous effects of the same
handler. The one notification that is not an action is the `windowSettings`
event (skeleton/app.js:571): what its listeners do to the options is the
`hook` parameter of `Window.WindowSettings`.

Modules:

- `Js` (js.dfy): JavaScript values as they come out of `JSON.parse`, plus
  `undefined`. It defines truthiness, `typeof … === 'object'`, `===`,
  `String(v)` and the properties `assignIn` copies.
- `Paths` (paths.dfy): the `name` of Node's `path.parse`, substring search
  and `substr`.
- `Effects` (effects.dfy): the actions.
- `EventBus` (eventbus.dfy): `emit`, `isPromise` and `emitAsync`. A listener
  is represented by what calling it does.
- `Loader` (loader.dfy): the registry of plugins and modules, the
  `module.json` rules, and the computed settings of the internal `autoupdate`
  and `localServer` modules.
- `Window` (window.dfy): `isProduction`, the window options with their forced
  `webPreferences`, the `meteor` scheme handler, `loadURL`, and the answer to
  the scheme registration.
- `Lifecycle` (lifecycle.dfy): the HCP state machine. Its state is
  `meteorAppVersionChange`, `pendingDesktopVersion`, `windowAlreadyLoaded`,
  `startup` and whether a window exists. Its events are `newVersionReady`,
  `revertVersionReady`, `will-navigate`, `did-stop-loading`,
  `startupDidComplete`, and the window being created or closed. The module
  also holds `updateToNewVersion` and lemmas over event sequences.
- `Startup` (startup.dfy): the stages of `onReady`, `loadDesktopJs` and
  `onServerRestarted`.

Inputs that the program gets from the outside world are parameters:

- the parsed settings.json;
- `process.argv`;
- the directory listings, the `lstat` results and the parsed `module.json`
  files;
- the outcome of `require` and of each constructor (`Loader.Construction`);
- what the `windowSettings` listeners do to the options (a function);
- what the local server's `getStreamProtocolResponse` settles to (a function);
- the settled result of the `beforeLoadUrl` listeners;
- whether the logger has a `warning` method;
- the version the autoupdate module reports as pending.

## Notable behaviour

- `handleAppStartup` does not clear `meteorAppVersionChange` before it runs
  the update procedure (skeleton/app.js:666-669). So two startup signals that
  arrive before the window is shown, with a version pending, run the update
  procedure twice (`Lifecycle.RepeatedStartupRepeatsUpdate`).
- `emit` stops at the first listener that throws. Node's emitter propagates
  the exception and `emit` catches it once (skeleton/app.js:408-414). So the
  later listeners do not run (`EventBus.Emit`).
- An external module's default name is `path.parse(modulePath).name`
  (skeleton/app.js:334). That is the directory name without its last
  extension: `foo.bar` registers as `foo` (`Paths.ParseName`,
  `Loader.ExternalModule`).
- A failing internal module is loaded outside any `try`
  (skeleton/app.js:270-274). It aborts the whole module phase
  (`Loader.InternalAbortsIffFailure`). Only external modules are isolated.
- The forced `webPreferences` fields are set by plain property assignment
  (skeleton/app.js:573-574). If the user settings or the `windowSettings`
  listeners leave a `webPreferences` that is not an object, that assignment
  throws and no window is created (`Window.WindowSettings`).
- The `beforeLoadUrl` rejection handler calls `this.log.warning`
  (skeleton/app.js:513). Where the logger only has `warn`, that call throws.
  Then the port is not updated and the URL is not reloaded
  (`Startup.OnServerRestarted`). The logger's source is not part of this
  model, so this depends on a parameter.
- A desktop relaunch is deferred with `setImmediate`
  (skeleton/app.js:712-715), so `loadingFinished` goes out before it
  (`Lifecycle.StartupRelaunchOrder`).

## Model

| member | source | states |
|---|---|---|
| `EventBus.EmitAsync` | skeleton/app.js:431-448 | If no listener throws, every listener is called, in order, and the outcome is the reference `Promise.all` over their results. The aggregate is rejected exactly when some listener returned a promise that rejects. It stays pending for good exactly when none rejects and one never settles. Each resolved value is the promise's value, or `undefined` for a non-promise result. The first listener that throws is the last one called, and the aggregate is rejected with what it threw. Any rejection reason comes from a listener that was called. |
| `EventBus.AllSettled` | skeleton/app.js:447 | `Promise.all` over known settlements: rejected iff one settlement rejects, with the reason of a rejecting one. Pending for good iff none rejects and one never settles. Otherwise it resolves to all the values, in order. |
| `EventBus.PromiseAllMatches` | skeleton/app.js:435-447 | The settlements the loop collects give the same aggregate as the reference `Promise.all` over the listeners. |
| `EventBus.Emit` | skeleton/app.js:408-414 | Listeners run in order up to and including the first that throws. That error is logged and never reaches the caller. Without a throw, all of them run. |
| `Loader.LoadPlugin` | skeleton/app.js:238-260 | A plugin whose `require` throws leaves the registry unchanged. Otherwise its name is bound: a throwing constructor leaves the class object, and a missing default export leaves `undefined`. A constructed plugin gets its options as settings when `typeof` says object (including `null` and arrays), else `{}`. |
| `Loader.LoadPluginsKeys` | skeleton/app.js:236-263 | After `loadPlugins`, the registry holds its earlier names plus exactly the names of the plugins whose `require` succeeded. |
| `Loader.LoadPluginsOwnName` | skeleton/app.js:236-263 | A plugin with a unique name ends up in the registry by its own outcome alone. If its `require` throws, the earlier entry under that name is kept. |
| `Loader.LoadPluginsUntouched` | skeleton/app.js:238-245 | Plugins with other names never change the entry under a name. |
| `Loader.ReadModuleConfiguration` | skeleton/app.js:307-325 | An unreadable module.json fails, and so does one that is neither an object nor an array. An array always succeeds, with no settings and a `null` name. Without `extract`, an object always succeeds, and the settings are exactly the properties of its `settings` value (none when absent). With `extract`, it succeeds exactly when `name` is a string and `settings` is absent, an object or an array. The settings are then those properties plus `extractedFilesPath`, set to the extracted directory for that name. The module name is module.json's `name` when present, else `null`. |
| `Loader.ExternalModule` | skeleton/app.js:333-350 | An unreadable or invalid module.json gives the directory-derived name and empty settings. A readable one gives its settings. A truthy `name` in it becomes the name, as a property key; only then can the name differ from the directory-derived one. Without `extract`, the settings are exactly the properties of module.json's `settings`. |
| `Loader.AutoupdateSettings` | skeleton/app.js:526-537 | The autoupdate module gets exactly six settings. Three paths are the user data directory. `initialBundlePath` is `meteor.asar` next to the skeleton. `customHCPUrl` is the configured value when truthy, else `null`. `webAppStartupTimeout` is the configured value when truthy, else 20000. |
| `Loader.LocalServerSettings` | skeleton/app.js:361-366 | The local server gets exactly two settings. `localFilesystem` is the configured `exposeLocalFilesystem`, `undefined` when not configured. `allowOriginLocalServer` is the configured value when truthy, else `false`. |
| `Loader.SkippedFilesIgnored` | skeleton/app.js:270-274 | Internal files whose path contains `module.js` have no effect on loading. |
| `Loader.InternalAbortsIffFailure` | skeleton/app.js:270-274 | The internal phase aborts exactly when a file that is not skipped fails to load. |
| `Loader.InternalKeys` | skeleton/app.js:270-274 | A completed internal phase adds exactly the `path.parse` names of the internal files that are not skipped. |
| `Loader.InternalEntry` | skeleton/app.js:270-376 | An internal file that is not skipped, and whose name no later file reuses, is registered as a constructed module from that file. `autoupdate` gets the autoupdate settings, `localServer` the local server settings, any other name `{}`. |
| `Loader.LoadExternalModule` | skeleton/app.js:288-299 | A loading directory binds its derived name to a constructed module with its settings, and sends nothing. Any other directory leaves the registry unchanged. One whose `lstat` or load failed sends one `moduleLoadFailed` with the directory name. A non-directory entry is passed over silently. |
| `Loader.ExternalKeys` | skeleton/app.js:288-299 | The external phase adds exactly the names of the directories that load. |
| `Loader.FailedDirectoryIsolated` | skeleton/app.js:288-299 | A failing directory anywhere in the listing leaves the same registry as if it were absent. So the directories after it load as they otherwise would. |
| `Loader.FailureNotifications` | skeleton/app.js:294-298 | The external phase sends `moduleLoadFailed` for exactly the entries whose `lstat` or load failed. |
| `Loader.LoadModules` | skeleton/app.js:268-300 | The phase aborts iff an internal module fails or `readdir` fails with a code other than `ENOENT`. `ENOENT` gives exactly the result of the internal modules: no external module and no notification. |
| `Loader.ModulesKeys` | skeleton/app.js:268-299 | A completed module phase registers the names already there, the names of the internal files that are not skipped and the names of the loading directories, and nothing else. |
| `Paths.ParseName` | skeleton/app.js:334 | The module name is a prefix of the base name. It is the whole name when there is no dot. When shorter, it stops at the last dot. It is shorter exactly when the base name is not `..` and has a dot after its first character. |
| `Window.ProductionIsEnvProd` | skeleton/app.js:146-148 | Production means `settings.env === 'prod'`. The `in` test adds nothing. |
| `Window.ForcedPreferences` | skeleton/app.js:573-574 | The forced preferences keep every other preference, set `nodeIntegration` to `false` and set `preload` to the preload script. |
| `Window.WindowSettings` | skeleton/app.js:555-574 | The options succeed iff `webPreferences` is an object after the listeners ran. On success every other option is as the listeners left it, and `webPreferences` holds the forced preferences. |
| `Window.NodeIntegrationAlwaysOff` | skeleton/app.js:555-574 | Take any user window settings whose `webPreferences`, if given, is an object, and leave out the listeners. The window then gets node integration off and the preload script. `show` is the user's value, else the diagnostic default. |
| `Window.RequestPath` | skeleton/app.js:622-626 | For a URL `"meteor://desktop" + p` the path is exactly `p`. A URL no longer than the root gives `""`. |
| `Window.HandleRequest` | skeleton/app.js:625-634 | The local server is asked for the stripped path. A fulfilled fetch is answered with its response and nothing is logged. A rejected one is answered with the server's error response, and the log names the path unless the reason is `null` or `undefined`. Only a rejection is logged. A fetch that never settles is never answered. |
| `Window.RequestForRootPath` | skeleton/app.js:622-628 | A request for `"meteor://desktop" + p` fetches exactly `p`. |
| `Window.LoadUrlActions` | skeleton/app.js:495-504 | Loading a URL ends with loading it. Developer tools open iff `devTools` is set and the build is not production or `prodDebug` is set; when they open, they open first. Nothing but opening the tools and loading that URL happens. |
| `Window.ProtocolRegistered` | skeleton/app.js:635-648 | A truthy registration error closes the window, shows the `Application` error box and quits, in that order, and loads nothing. No error, or a falsy one, loads the root URL exactly as `loadURL` does, and does not quit. |
| `Lifecycle.RelaunchArgs` | skeleton/app.js:713 | The relaunch arguments are the process arguments after the first, followed by `--hcp`. |
| `Lifecycle.UpdateToNewVersion` | skeleton/app.js:697-729 | `beforeReload` goes out first, with the pending version and the decision, and the procedure runs once. If `desktopHCP` is truthy and the desktop versions differ, the relaunch with the relaunch arguments and the quit are deferred and nothing else happens at once. Otherwise the autoupdate module resets and the local server is initialised with `isUpdate = true`, at once, and nothing is deferred. Never both. |
| `Lifecycle.HandleAppStartup` | skeleton/app.js:653-692 | An ignored `did-stop-loading` changes nothing and sends nothing. The call never touches the version flag, the pending version or the window. Once the window is shown, a heeded call only sends `loadingFinished`. A heeded call that does not crash sends `loadingFinished`, after which only a deferred relaunch and quit can follow. With a version pending before the window is shown, it runs the update once and does not show the window. `windowAlreadyLoaded` and the flag are left unchanged in that case. Without a pending version, it starts with `beforeLoadFinish`; with a window the effects are exactly `beforeLoadFinish`, show, focus, `loadingFinished`. The window is shown iff the call is heeded, the window was not shown yet, no version is pending and a window exists. Afterwards the window counts as shown iff it already did or the call was heeded with no version pending. |
| `Lifecycle.StartupRelaunchOrder` | skeleton/app.js:665-715 | A first startup signal with a version pending and a changed desktop version sends `beforeReload`, then `loadingFinished`, then relaunches and quits. |
| `Lifecycle.StartupResetOrder` | skeleton/app.js:665-729 | A first startup signal with a version pending and no desktop update sends `beforeReload`, resets the autoupdate module, initialises the local server as an update, then sends `loadingFinished`. |
| `Lifecycle.OnWillNavigate` | skeleton/app.js:606-614 | With no version pending, navigation is neither prevented nor acted on. With one pending, navigation is prevented once, the flag is cleared, `beforeReload` follows and the update runs exactly once. With a desktop update the effects end with the relaunch and quit; without one, with the autoupdate reset and the local server initialised as an update. |
| `Lifecycle.Transition` | skeleton/app.js:89-99 | The version listeners set the flag and perform nothing. `revertVersionReady` keeps the pending desktop version. Only navigation clears the flag. `windowAlreadyLoaded` never goes back to false, and only the startup signals change it. A created window exists until its `closed` event, and no other event creates or drops it. |
| `Lifecycle.FlagClearStaysQuiet` | skeleton/app.js:93-99 | Start with no version pending, and let no version be announced. Then no navigation is ever prevented, no update ever runs and the flag stays clear. |
| `Lifecycle.QuietFromLaunch` | skeleton/app.js:25-99 | From the state the constructor leaves, events without a version announcement never prevent a navigation or run an update. |
| `Lifecycle.NavigationUpdatesOnce` | skeleton/app.js:606-614 | A navigation with a version pending, followed by any events without a new announcement, prevents exactly one navigation and runs exactly one update. |
| `Lifecycle.WindowLoadedIsPermanent` | skeleton/app.js:665-671 | Once the window is marked shown, it stays marked shown after any events. |
| `Lifecycle.StartupIdempotentOnceShown` | skeleton/app.js:653-692 | After the window is shown, startup signals only send one `loadingFinished` per heeded signal. They leave the flag and the shown mark as they were. |
| `Lifecycle.ShowsAtMostOnce` | skeleton/app.js:665-675 | Over any sequence of events the window is shown at most once, and never when it was already marked as shown. |
| `Lifecycle.RepeatedStartupRepeatsUpdate` | skeleton/app.js:665-670 | Two `startupDidComplete` signals with a version pending, before the window is shown, run the update procedure twice and never show the window. |
| `Startup.LoadDesktopJs` | skeleton/app.js:382-401 | A failing desktop.js changes nothing and sends nothing. A loading one adds `desktop`, sends `desktopLoaded` and leaves every other name alone. |
| `Startup.AfterModules` | skeleton/app.js:466-488 | An exception from module loading crashes `onReady` and leaves the registry as it is. Otherwise `beforeDesktopJsLoad` goes out first, and the local server is initialised iff both `localServer` and `autoupdate` are instances, the sequence then ending with the callbacks, `beforeLocalServerInit`, the initialisation and `afterInitialization`. |
| `Startup.StartedKeys` | skeleton/app.js:468-471 | Once module loading completes, the rest of `onReady` adds `desktop` to the registry exactly when desktop.js constructs, and no other name. |
| `Startup.OnReady` | skeleton/app.js:457-464 | `onReady` starts by sending `beforePluginsLoad` and then `beforeModulesLoad`. |
| `Startup.OnReadyKeys` | skeleton/app.js:457-471 | When module loading completes, `onReady` leaves registered exactly the plugins whose `require` succeeded, the internal modules that are not skipped, the module directories that load and, if its constructor succeeds, `desktop`. |
| `Startup.ServerStartsIff` | skeleton/app.js:466-487 | The local server is initialised iff module loading did not abort and both `localServer` and `autoupdate` are constructed modules. |
| `Startup.ServerStartSequence` | skeleton/app.js:468-489 | Whenever the local server is initialised, desktop.js was attempted before it. The sequence then ends with `setCallbacks`, `beforeLocalServerInit`, the initialisation and `afterInitialization`. |
| `Startup.AbortSkipsDesktopJs` | skeleton/app.js:466-471 | An exception from module loading ends `onReady` before desktop.js is attempted. |
| `Startup.DesktopJsIsolated` | skeleton/app.js:382-401 | Whether desktop.js loads does not change whether the local server starts. |
| `Startup.OnServerRestarted` | skeleton/app.js:510-519 | `beforeLoadUrl` goes out with the new and the old port. If the listeners resolve, or one rejects and the warning can be logged, the new port is remembered and the root URL reloaded exactly as `loadURL` does. If the listeners' promise stays pending, or the warning call throws, nothing more happens. |

## Left out

- Electron primitives are represented only as actions. These include `BrowserWindow`, `dialog`, `protocol.registerSchemesAsPrivileged` and `registerStreamProtocol`, `app.relaunch`/`quit`, `setAppUserModelId` and `makeSingleInstance`.
- `applySingleInstance`: it consists of Electron single-instance primitives.
- `loadSettings`, `getOsSpecificValues` and `prepareWindowSettings`: the settings.json read and parse, the platform lookup and the `WindowSettings` merge are I/O or collaborators whose source is not part of this model. The parsed settings and the prepared `window` settings are inputs.
- The uncaught-exception handlers (`catchUncaughtExceptions`, `emitErrorAndLogIt`, `uncaughtExceptionHandler`): an escaping exception is the action `Crash`. What follows it is not modelled, except the close/dialog/quit sequence after a failed scheme registration.
- `onStartupFailed`: a fixed sequence of Electron primitives (notification, dialog, quit).
- Timers: the 100 ms delay before the first `loadURL` and the 500 ms delay before the crash dialog. The `setImmediate` before relaunching is modelled only as ordering: the deferred relaunch and quit come after the rest of the same handler's effects.
- Logging, `console.time`, the `globalPaths` additions and `NODE_ENV`.
- The developer conveniences in `handleAppStartup` (skeleton/app.js:676-686): that block is truncated and not valid code. Also the devtron banner on `did-finish-load`.
- The rest of `onServerReady`: creating the window, the `closed` handler and `windowCreated`. These are the `WindowCreated` and `WindowClosed` events of `Lifecycle`.
- Exceptions thrown by foreign modules' methods (`onReset`, `init`, `setCallbacks`, `getStreamProtocolResponse`). So are exceptions thrown by the protocol `callback`, which would re-enter the rejection path.
- lib/electron.js: a child-process launcher whose only logic builds a two-element argument list. plugins/watcher/package.js: a package manifest with no behaviour.
- `Loader.LoadPlugins`: the plugin table is given as a list in `Object.keys` order. A `plugins` setting that is `null`, where `Object.keys` throws, is not modelled.
- `EventBus.EmitAsync`: when several promises reject, the real winner is the first to reject in time. The model reports the first in listener order. Its contract only promises a reason from some called listener.
- `Js.StrictEquals`: arrays and objects are never `===` here. Values from different sources are different references.
- `Js.Json`: numbers are integers. JSON fractions and exponents are not modelled.
- `Loader.ExtractedFilesPath`: the path is built by concatenation. `path.join`'s normalisation of `.`, `..` and repeated separators is not modelled.
- `Window.ForcedPreferences`: an array-valued `webPreferences` becomes a plain object with the same properties, not an array with two extra properties.
- `Startup.LoadDesktopJs`: `desktopLoaded` carries the desktop instance in the source. An instance is not a JSON value, so the modelled effect has no arguments.
- `Window.LoadUrlActions`: with developer tools, the `devtools-opened` event is taken to fire once, which loads the URL a second time.
- `Lifecycle.Config`: the autoupdate module's pending bundle version is taken as fixed for a run.
- `Paths.BaseName`: only `/` separates path components. Windows separators are not modelled.

=== FILE: effects.dfy ===
/**
 The side effects the skeleton application performs, as values. Every
 transition of the model returns the effects it performs, in order, instead
 of performing them.
 */
module Effects {
  import opened Js

  datatype Action =
    | Emit(event: string, args: seq<Json>)   // a notification on the events bus
    | PreventNavigation                      // `event.preventDefault()` on a navigation
    | ShowWindow
    | FocusWindow
    | CloseWindow
    | Relaunch(argv: seq<string>)            // `app.relaunch({ args })`
    | Quit                                   // `app.quit()`
    | ResetAutoupdate                        // the autoupdate module's `onReset()`
    | SetServerCallbacks                     // the local server's `setCallbacks(...)`
    | InitLocalServer(isUpdate: bool)        // the local server's `init(bundle, path, isUpdate)`
    | OpenDevTools
    | LoadUrl(url: string)
    | ShowErrorBox(title: string)
    | Crash(error: string)                   // an exception escapes the handler

  function CountOf(actions: seq<Action>, a: Action): (n: nat)
    ensures n <= |actions|
    ensures n == 0 <==> a !in actions
  {
    if |actions| == 0 then 0
    else CountOf(actions[..|actions| - 1], a) + (if actions[|actions| - 1] == a then 1 else 0)
  }

  lemma {:induction false} CountOfAppend(xs: seq<Action>, ys: seq<Action>, a: Action)
    ensures CountOf(xs + ys, a) == CountOf(xs, a) + CountOf(ys, a)
    decreases |ys|
  {
    if |ys| == 0 {
      assert xs + ys == xs;
    } else {
      assert (xs + ys)[..|xs + ys| - 1] == xs + ys[..|ys| - 1];
      CountOfAppend(xs, ys[..|ys| - 1], a);
    }
  }
}

=== FILE: eventbus.dfy ===
/**
 The two ways the skeleton application notifies the listeners on its events
 bus (skeleton/app.js `emit` and `emitAsync`). A listener is represented by
 what calling it does: it throws, or it returns a value, which may be a
 promise (anything with a callable `then`) that settles or stays pending.
 */
module EventBus {
  import opened Js

  /** How a promise settles, if it ever does. */
  datatype Settlement = Fulfills(value: Json) | Rejects(reason: Json) | Pends

  /**
   A value a listener returns: a JSON value, a function, or another object.
   Functions and objects carry `then` when they have a callable `then`
   property, together with how that thenable settles.
   */
  datatype JsValue =
    | Plain(v: Json)
    | FunctionValue(thenable: Option<Settlement>)
    | ObjectValue(thenable: Option<Settlement>)

  datatype Listener = Throws(error: Json) | Returns(result: JsValue)

  /**
   What becomes of the promise `emitAsync` hands back: it resolves, it
   rejects, or it stays pending for good.
   */
  datatype Aggregate = AllResolved(values: seq<Json>) | Rejected(reason: Json) | Stalls

  /**
   `App.isPromise`: truthy, an object or a function, with a `then` that is a
   function. Parsed JSON never qualifies, since JSON holds no functions.
   */
  predicate IsPromise(v: JsValue) {
    match v
    case Plain(_) => false
    case FunctionValue(t) => t.Some?
    case ObjectValue(t) => t.Some?
  }

  /** What `Promise.all` sees for one listener result: the promise itself, or `Promise.resolve()`. */
  function SettlementOf(v: JsValue): Settlement {
    if IsPromise(v) then v.thenable.value else Fulfills(Undefined)
  }

  predicate RejectsAt(listeners: seq<Listener>, j: int) {
    0 <= j < |listeners| && listeners[j].Returns? && SettlementOf(listeners[j].result).Rejects?
  }

  predicate PendsAt(listeners: seq<Listener>, j: int) {
    0 <= j < |listeners| && listeners[j].Returns? && SettlementOf(listeners[j].result).Pends?
  }

  predicate NoneThrows(listeners: seq<Listener>) {
    forall j :: 0 <= j < |listeners| ==> listeners[j].Returns?
  }

  /** `i` is the first listener that throws. */
  predicate FirstThrowAt(listeners: seq<Listener>, i: int) {
    0 <= i < |listeners| && listeners[i].Throws? && NoneThrows(listeners[..i])
  }

  /**
   `Promise.all` over the settlements of the listeners' results: the fulfilled
   values when all fulfil, a rejection as soon as one rejects, and pending for
   good when none rejects but one never settles. Which rejection wins depends
   on timing; this reference takes the first in listener order.
   */
  function PromiseAll(listeners: seq<Listener>): Aggregate
    requires NoneThrows(listeners)
  {
    if |listeners| == 0 then AllResolved([])
    else
      var s := SettlementOf(listeners[0].result);
      if s.Rejects? then Rejected(s.reason)
      else
        match PromiseAll(listeners[1..])
        case AllResolved(values) => if s.Pends? then Stalls else AllResolved([s.value] + values)
        case Rejected(reason) => Rejected(reason)
        case Stalls => Stalls
  }

  /**
   `App.emitAsync`: calls the listeners one by one, collecting a promise per
   listener (a resolved one for a non-promise result). A listener that throws
   ends the loop; the caller gets a promise rejected with what was thrown and
   the later listeners are never called. Otherwise the caller gets the
   `Promise.all` of the collected promises, which never settles when one of
   them never does and none rejects.
   */
  method EmitAsync(listeners: seq<Listener>) returns (invoked: nat, outcome: Aggregate)
    ensures NoneThrows(listeners) ==> invoked == |listeners|
    ensures NoneThrows(listeners) ==> (outcome.Rejected? <==> exists j :: RejectsAt(listeners, j))
    ensures NoneThrows(listeners) ==>
      (outcome.Stalls? <==> (forall j :: !RejectsAt(listeners, j)) && exists j :: PendsAt(listeners, j))
    ensures NoneThrows(listeners) ==> outcome == PromiseAll(listeners)
    ensures outcome.AllResolved? ==>
      && NoneThrows(listeners)
      && |outcome.values| == |listeners|
      && forall j :: 0 <= j < |listeners| ==>
           SettlementOf(listeners[j].result) == Fulfills(outcome.values[j])
    ensures forall i :: FirstThrowAt(listeners, i) ==> invoked == i + 1 && outcome == Rejected(listeners[i].error)
    ensures outcome.Rejected? ==>
      exists j :: 0 <= j < invoked <= |listeners| &&
        ((listeners[j].Throws? && listeners[j].error == outcome.reason) ||
         (RejectsAt(listeners, j) && SettlementOf(listeners[j].result).reason == outcome.reason))
  {
    var settlements: seq<Settlement> := [];
    invoked := 0;
    while invoked < |listeners|
      invariant invoked <= |listeners|
      invariant |settlements| == invoked
      invariant NoneThrows(listeners[..invoked])
      invariant forall j :: 0 <= j < invoked ==> settlements[j] == SettlementOf(listeners[j].result)
    {
      match listeners[invoked]
      case Throws(e) =>
        assert FirstThrowAt(listeners, invoked);
        outcome := Rejected(e);
        invoked := invoked + 1;
        return;
      case Returns(v) =>
        settlements := settlements + [if IsPromise(v) then v.thenable.value else Fulfills(Undefined)];
        invoked := invoked + 1;
    }
    assert listeners[..invoked] == listeners;
    assert forall j :: 0 <= j < |listeners| ==> (settlements[j].Rejects? <==> RejectsAt(listeners, j));
    assert forall j :: 0 <= j < |listeners| ==> (settlements[j].Pends? <==> PendsAt(listeners, j));
    outcome := AllSettled(settlements);
    PromiseAllMatches(listeners, settlements);
  }

  /** `Promise.all` over already-known settlements, first rejection in order. */
  function AllSettled(ss: seq<Settlement>): (r: Aggregate)
    ensures r.Rejected? <==> exists j :: 0 <= j < |ss| && ss[j].Rejects?
    ensures r.Rejected? ==> exists j :: 0 <= j < |ss| && ss[j] == Rejects(r.reason)
    ensures r.Stalls? <==> (forall j :: 0 <= j < |ss| ==> !ss[j].Rejects?) && exists j :: 0 <= j < |ss| && ss[j].Pends?
    ensures r.AllResolved? ==> |r.values| == |ss| && forall j :: 0 <= j < |ss| ==> ss[j] == Fulfills(r.values[j])
  {
    if |ss| == 0 then AllResolved([])
    else if ss[0].Rejects? then Rejected(ss[0].reason)
    else
      var rest := AllSettled(ss[1..]);
      assert forall j :: 1 <= j < |ss| ==> ss[j] == ss[1..][j - 1];
      match rest
      case AllResolved(values) => if ss[0].Pends? then Stalls else AllResolved([ss[0].value] + values)
      case Rejected(reason) => Rejected(reason)
      case Stalls => Stalls
  }

  /** The loop's aggregate is the reference `Promise.all` over the listeners. */
  lemma {:induction false} PromiseAllMatches(listeners: seq<Listener>, ss: seq<Settlement>)
    requires NoneThrows(listeners)
    requires |ss| == |listeners|
    requires forall j :: 0 <= j < |ss| ==> ss[j] == SettlementOf(listeners[j].result)
    ensures AllSettled(ss) == PromiseAll(listeners)
  {
    if |ss| > 0 {
      PromiseAllMatches(listeners[1..], ss[1..]);
    }
  }

  /**
   `App.emit`: Node's emitter calls the listeners in registration order and
   stops at the first that throws; the exception is caught and logged, so the
   caller never sees it. Returns how many listeners ran and the logged error.
   */
  function Emit(listeners: seq<Listener>): (r: (nat, Option<Json>))
    ensures r.0 <= |listeners|
    ensures NoneThrows(listeners) <==> r.1.None?
    ensures NoneThrows(listeners) ==> r.0 == |listeners|
    ensures forall i :: FirstThrowAt(listeners, i) ==> r == (i + 1, Some(listeners[i].error))
  {
    if |listeners| == 0 then (0, None)
    else if listeners[0].Throws? then
      assert FirstThrowAt(listeners, 0);
      (1, Some(listeners[0].error))
    else
      var rest := Emit(listeners[1..]);
      assert forall j :: 1 <= j < |listeners| ==> listeners[j] == listeners[1..][j - 1];
      assert forall i :: FirstThrowAt(listeners, i) ==> i >= 1 && FirstThrowAt(listeners[1..], i - 1) by {
        forall i | FirstThrowAt(listeners, i)
          ensures i >= 1 && FirstThrowAt(listeners[1..], i - 1)
        {
          assert listeners[..i][0] == listeners[0];
          assert listeners[1..][..i - 1] == listeners[..i][1..];
        }
      }
      (rest.0 + 1, rest.1)
  }
}

=== FILE: js.dfy ===
/**
 This module models the JavaScript values the skeleton application reads from
 its settings files and passes between its parts: parsed JSON plus the
 `undefined` that a missing property reads as, with the language's notions of
 truthiness, `typeof … === 'object'`, strict equality and string conversion.
 */
module Js {

  datatype Json =
    | Undefined
    | Null
    | Bool(b: bool)
    | Num(n: int)
    | Str(s: string)
    | Arr(items: seq<Json>)
    | Obj(fields: map<string, Json>)

  /** A plain JavaScript object, as a map from property name to value. */
  type Object = map<string, Json>

  datatype Result<+T> = Success(value: T) | Failure(error: string)

  datatype Option<+T> = None | Some(value: T)

  /** JavaScript truthiness: `undefined`, `null`, `false`, `0` and `""` are falsy. */
  predicate Truthy(v: Json) {
    match v
    case Undefined => false
    case Null => false
    case Bool(b) => b
    case Num(n) => n != 0
    case Str(s) => s != ""
    case Arr(_) => true
    case Obj(_) => true
  }

  /** `typeof v === 'object'`, which holds for `null` and for arrays too. */
  predicate IsObjectType(v: Json) {
    v.Null? || v.Arr? || v.Obj?
  }

  /** Property read: a missing property reads as `undefined`. */
  function Get(o: Object, key: string): Json {
    if key in o then o[key] else Undefined
  }

  /** `'key' in o` on a plain object. */
  predicate Has(o: Object, key: string) {
    key in o
  }

  /** The value of `a || b`: the left operand when it is truthy, else the right one. */
  function Or(a: Json, b: Json): Json {
    if Truthy(a) then a else b
  }

  /**
   `a === b`. Two arrays or objects that come from different sources are
   different references, so composite values are never strictly equal here.
   */
  predicate StrictEquals(a: Json, b: Json) {
    match a
    case Undefined => b.Undefined?
    case Null => b.Null?
    case Bool(x) => b.Bool? && b.b == x
    case Num(x) => b.Num? && b.n == x
    case Str(x) => b.Str? && b.s == x
    case Arr(_) => false
    case Obj(_) => false
  }

  function DigitChar(d: nat): char
    requires d < 10
  {
    "0123456789"[d]
  }

  /** Decimal notation of a natural number, as `String(n)` writes it. */
  function NatToString(n: nat): (r: string)
    ensures |r| > 0
    decreases n
  {
    if n < 10 then [DigitChar(n)] else NatToString(n / 10) + [DigitChar(n % 10)]
  }

  function IntToString(n: int): (r: string)
    ensures |r| > 0
  {
    if n < 0 then "-" + NatToString(-n) else NatToString(n)
  }

  /** `String(v)`, the conversion a value goes through when used as a property name. */
  function ToPropertyKey(v: Json): string
    decreases v
  {
    match v
    case Undefined => "undefined"
    case Null => "null"
    case Bool(b) => if b then "true" else "false"
    case Num(n) => IntToString(n)
    case Str(s) => s
    case Arr(items) =>
      // `items.join(',')`: `null` and `undefined` elements render as empty strings.
      JoinWithCommas(seq(|items|, i requires 0 <= i < |items| =>
        if items[i].Undefined? || items[i].Null? then "" else ToPropertyKey(items[i])))
    case Obj(_) => "[object Object]"
  }

  function JoinWithCommas(parts: seq<string>): string
  {
    if |parts| == 0 then ""
    else if |parts| == 1 then parts[0]
    else JoinWithCommas(parts[..|parts| - 1]) + "," + parts[|parts| - 1]
  }

  /** The own enumerable properties of an array: its indices. */
  function IndexEntries(items: seq<Json>): Object
  {
    if |items| == 0 then map[]
    else IndexEntries(items[..|items| - 1])[NatToString(|items| - 1) := items[|items| - 1]]
  }

  /** The own enumerable properties of a string: one single-character string per index. */
  function CharEntries(s: string): Object
  {
    IndexEntries(seq(|s|, i requires 0 <= i < |s| => Str([s[i]])))
  }

  /**
   The properties `assignIn({}, v)` copies: an object's fields, the indices of
   an array or a string, and nothing at all from `null`, `undefined`, booleans
   and numbers.
   */
  function OwnEntries(v: Json): Object {
    match v
    case Obj(fields) => fields
    case Arr(items) => IndexEntries(items)
    case Str(s) => CharEntries(s)
    case _ => map[]
  }
}

=== FILE: lifecycle.dfy ===
/**
 The hot-code-push state machine of the skeleton application
 (skeleton/app.js): the `newVersionReady` and `revertVersionReady`
 listeners, the `will-navigate` handler, `handleAppStartup` fed by
 `did-stop-loading` and `startupDidComplete`, and the update procedure
 `updateToNewVersion`. Each event yields the next state and the effects it
 performs, in order; effects deferred with `setImmediate` come after all
 the synchronous effects of the same event.
 */
module Lifecycle {
  import opened Js
  import opened Effects

  /**
   `meteorAppVersionChange`, `pendingDesktopVersion`, `windowAlreadyLoaded`
   and `startup`, plus whether `this.window` currently holds a window.
   */
  datatype State = State(
    versionChange: bool,
    pendingDesktopVersion: Json,
    windowAlreadyLoaded: bool,
    startup: bool,
    window: bool)

  /**
   What stays fixed while the machine runs: the parsed settings.json, the
   process arguments, and the version the autoupdate module reports as
   pending (the first argument of `beforeReload`).
   */
  datatype Config = Config(settings: Object, argv: seq<string>, pendingBundleVersion: Json)

  /** The state the constructor leaves. */
  const Initial: State := State(false, Null, false, true, false)

  datatype Event =
    | NewVersionReady(version: Json, desktopVersion: Json)
    | RevertVersionReady
    | WillNavigate(url: string)
    | DidStopLoading
    | StartupDidComplete
    | WindowCreated
    | WindowClosed

  datatype Step = Step(state: State, actions: seq<Action>)

  // ---------------------------------------------------------------- update procedure

  /** The value of `settings.desktopHCP && settings.desktopVersion !== pendingDesktopVersion`. */
  function DesktopUpdate(c: Config, s: State): Json {
    var hcp := Get(c.settings, "desktopHCP");
    if !Truthy(hcp) then hcp
    else Bool(!StrictEquals(Get(c.settings, "desktopVersion"), s.pendingDesktopVersion))
  }

  /** `process.argv.slice(1).concat('--hcp')`. */
  function RelaunchArgs(argv: seq<string>): (args: seq<string>)
    ensures |args| == if |argv| == 0 then 1 else |argv|
    ensures args[|args| - 1] == "--hcp"
    ensures forall i :: 1 <= i < |argv| ==> args[i - 1] == argv[i]
  {
    (if |argv| == 0 then [] else argv[1..]) + ["--hcp"]
  }

  predicate IsBeforeReload(a: Action) {
    a.Emit? && a.event == "beforeReload"
  }

  /** How many times the update procedure ran: each run sends exactly one `beforeReload`. */
  function Updates(actions: seq<Action>): (n: nat)
    ensures n <= |actions|
  {
    if |actions| == 0 then 0
    else Updates(actions[..|actions| - 1]) + (if IsBeforeReload(actions[|actions| - 1]) then 1 else 0)
  }

  /** A sequence without `beforeReload` records no update. */
  lemma {:induction false} NoUpdates(actions: seq<Action>)
    requires forall a :: a in actions ==> !IsBeforeReload(a)
    ensures Updates(actions) == 0
    decreases |actions|
  {
    if |actions| > 0 {
      NoUpdates(actions[..|actions| - 1]);
    }
  }

  lemma {:induction false} UpdatesAppend(xs: seq<Action>, ys: seq<Action>)
    ensures Updates(xs + ys) == Updates(xs) + Updates(ys)
    decreases |ys|
  {
    if |ys| == 0 {
      assert xs + ys == xs;
    } else {
      assert (xs + ys)[..|xs + ys| - 1] == xs + ys[..|ys| - 1];
      UpdatesAppend(xs, ys[..|ys| - 1]);
    }
  }

  /**
   The effects of one run of the update procedure: those it performs at once,
   and those it defers with `setImmediate` until the current handler has
   returned.
   */
  datatype Update = Update(now: seq<Action>, deferred: seq<Action>)

  /** The effects `setImmediate` defers: relaunching and quitting. */
  predicate IsDeferred(a: Action) {
    a.Relaunch? || a.Quit?
  }

  /**
   `updateToNewVersion`. A desktop update is needed when `desktopHCP` is on
   and the running desktop version differs from the pending one.
   `beforeReload` goes out first with that decision; then either the
   application relaunches with its arguments after the first plus `--hcp`
   and quits, deferred, or the autoupdate module resets and the local server
   is initialised again as an update, at once. Never both.
   */
  function UpdateToNewVersion(c: Config, s: State): (u: Update)
    ensures |u.now| > 0 && u.now[0] == Emit("beforeReload", [c.pendingBundleVersion, DesktopUpdate(c, s)])
    ensures Updates(u.now) == 1 && Updates(u.deferred) == 0
    ensures Truthy(Get(c.settings, "desktopHCP")) && !StrictEquals(Get(c.settings, "desktopVersion"), s.pendingDesktopVersion) ==>
      u.now == u.now[..1] && u.deferred == [Relaunch(RelaunchArgs(c.argv)), Quit]
    ensures !(Truthy(Get(c.settings, "desktopHCP")) && !StrictEquals(Get(c.settings, "desktopVersion"), s.pendingDesktopVersion)) ==>
      u.now[1..] == [ResetAutoupdate, InitLocalServer(true)] && u.deferred == []
    ensures Truthy(DesktopUpdate(c, s)) ==>
      && u.now == [Emit("beforeReload", [c.pendingBundleVersion, DesktopUpdate(c, s)])]
      && u.deferred == [Relaunch(RelaunchArgs(c.argv)), Quit]
    ensures !Truthy(DesktopUpdate(c, s)) ==>
      && u.now == [Emit("beforeReload", [c.pendingBundleVersion, DesktopUpdate(c, s)]), ResetAutoupdate, InitLocalServer(true)]
      && u.deferred == []
    ensures (exists a :: a in u.deferred && a.Relaunch?) <==> ResetAutoupdate !in u.now
    ensures forall a :: a in u.deferred ==> IsDeferred(a)
    ensures forall a :: a in u.now[1..] ==> !IsDeferred(a) && !a.Emit? && a != PreventNavigation && a != ShowWindow
  {
    var desktopUpdate := DesktopUpdate(c, s);
    var announce := Emit("beforeReload", [c.pendingBundleVersion, desktopUpdate]);
    assert Updates([announce]) == 1;
    if Truthy(desktopUpdate) then
      var deferred := [Relaunch(RelaunchArgs(c.argv)), Quit];
      NoUpdates(deferred);
      Update([announce], deferred)
    else
      var reset := [ResetAutoupdate, InitLocalServer(true)];
      NoUpdates(reset);
      UpdatesAppend([announce], reset);
      assert ([announce] + reset)[1..] == reset;
      NoUpdates([]);
      Update([announce] + reset, [])
  }

  /**
   The effects end with `loadingFinished`, followed at most by effects deferred
   past the handler.
   */
  predicate FinishesLast(actions: seq<Action>) {
    exists k :: 0 <= k < |actions| && actions[k] == Emit("loadingFinished", []) &&
      forall j :: k < j < |actions| ==> IsDeferred(actions[j])
  }

  lemma FinishedAtEnd(actions: seq<Action>)
    requires |actions| > 0 && actions[|actions| - 1] == Emit("loadingFinished", [])
    ensures FinishesLast(actions)
  {
    var k := |actions| - 1;
    assert actions[k] == Emit("loadingFinished", []);
  }

  /** `loadingFinished` between the immediate effects and the deferred ones. */
  lemma FinishedBeforeDeferred(now: seq<Action>, deferred: seq<Action>)
    requires forall a :: a in deferred ==> IsDeferred(a)
    ensures FinishesLast(now + [Emit("loadingFinished", [])] + deferred)
  {
    var actions := now + [Emit("loadingFinished", [])] + deferred;
    var k := |now|;
    assert actions[k] == Emit("loadingFinished", []);
    forall j | k < j < |actions|
      ensures IsDeferred(actions[j])
    {
      assert actions[j] == deferred[j - k - 1];
    }
  }

  /** An action absent on both sides of a single occurrence counts once. */
  lemma CountOne(xs: seq<Action>, a: Action, ys: seq<Action>)
    requires a !in xs && a !in ys
    ensures CountOf(xs + [a] + ys, a) == 1
  {
    CountOfAppend(xs, [a], a);
    CountOfAppend(xs + [a], ys, a);
    assert CountOf([a], a) == 1 by {
      assert [a][..0] == [];
    }
  }

  /** `Updates` over three parts. */
  lemma UpdatesAppend3(xs: seq<Action>, ys: seq<Action>, zs: seq<Action>)
    ensures Updates(xs + ys + zs) == Updates(xs) + Updates(ys) + Updates(zs)
  {
    UpdatesAppend(xs, ys);
    UpdatesAppend(xs + ys, zs);
  }

  // ---------------------------------------------------------------- startup completion

  /** `showWindowOnStartupDidComplete` makes `did-stop-loading` alone insufficient. */
  predicate Ignored(c: Config, startupDidCompleteEvent: bool) {
    Truthy(Get(c.settings, "showWindowOnStartupDidComplete")) && !startupDidCompleteEvent
  }

  /**
   A pending version at startup: the update procedure, then `loadingFinished`.
   A relaunch the update defers happens only after `loadingFinished` has gone out.
   */
  function UpdateOnStartup(c: Config, s: State): (actions: seq<Action>)
    ensures Updates(actions) == 1
    ensures ShowWindow !in actions
    ensures FinishesLast(actions)
    ensures CountOf(actions, Emit("loadingFinished", [])) == 1
    ensures actions[0] == Emit("beforeReload", [c.pendingBundleVersion, DesktopUpdate(c, s)])
    ensures Truthy(DesktopUpdate(c, s)) ==>
      actions == [Emit("beforeReload", [c.pendingBundleVersion, DesktopUpdate(c, s)]), Emit("loadingFinished", []),
                  Relaunch(RelaunchArgs(c.argv)), Quit]
    ensures !Truthy(DesktopUpdate(c, s)) ==>
      actions == [Emit("beforeReload", [c.pendingBundleVersion, DesktopUpdate(c, s)]), ResetAutoupdate,
                  InitLocalServer(true), Emit("loadingFinished", [])]
  {
    var u := UpdateToNewVersion(c, s);
    FinishAfterUpdate(u);
    StartupUpdateShape(c, s);
    u.now + [Emit("loadingFinished", [])] + u.deferred
  }

  /** The two shapes of an update at startup, with `loadingFinished` before anything deferred. */
  lemma StartupUpdateShape(c: Config, s: State)
    ensures var u := UpdateToNewVersion(c, s);
      var actions := u.now + [Emit("loadingFinished", [])] + u.deferred;
      && (Truthy(DesktopUpdate(c, s)) ==>
            actions == [Emit("beforeReload", [c.pendingBundleVersion, DesktopUpdate(c, s)]), Emit("loadingFinished", []),
                        Relaunch(RelaunchArgs(c.argv)), Quit])
      && (!Truthy(DesktopUpdate(c, s)) ==>
            actions == [Emit("beforeReload", [c.pendingBundleVersion, DesktopUpdate(c, s)]), ResetAutoupdate,
                        InitLocalServer(true), Emit("loadingFinished", [])])
  {
  }

  /** The two shapes of an update after a prevented navigation. */
  lemma NavigationUpdateShape(c: Config, s: State)
    ensures var u := UpdateToNewVersion(c, s);
      var actions := [PreventNavigation] + (u.now + u.deferred);
      && |actions| == 4
      && (Truthy(DesktopUpdate(c, s)) ==> actions[2..] == [Relaunch(RelaunchArgs(c.argv)), Quit])
      && (!Truthy(DesktopUpdate(c, s)) ==> actions[2..] == [ResetAutoupdate, InitLocalServer(true)])
  {
  }

  /** What a run of the update procedure looks like, whatever the configuration. */
  predicate WellFormedUpdate(u: Update) {
    && |u.now| > 0 && IsBeforeReload(u.now[0])
    && Updates(u.now) == 1 && Updates(u.deferred) == 0
    && (forall a :: a in u.deferred ==> IsDeferred(a))
    && (forall a :: a in u.now[1..] ==> !IsDeferred(a) && !a.Emit? && a != PreventNavigation && a != ShowWindow)
  }

  /** A prevented navigation followed by a run of the update procedure. */
  lemma PreventBeforeUpdate(u: Update)
    requires WellFormedUpdate(u)
    ensures var actions := [PreventNavigation] + (u.now + u.deferred);
      && Updates(actions) == 1
      && CountOf(actions, PreventNavigation) == 1
      && actions[1] == u.now[0]
  {
    var rest := u.now + u.deferred;
    UpdatesAppend(u.now, u.deferred);
    NoUpdates([PreventNavigation]);
    UpdatesAppend([PreventNavigation], rest);
    PreventOnce(u, rest);
  }

  lemma PreventOnce(u: Update, rest: seq<Action>)
    requires WellFormedUpdate(u) && rest == u.now + u.deferred
    ensures CountOf([PreventNavigation] + rest, PreventNavigation) == 1
  {
    UpdateExcludes(u);
    assert PreventNavigation !in rest;
    CountOfAppend([PreventNavigation], rest, PreventNavigation);
    assert CountOf([PreventNavigation], PreventNavigation) == 1 by {
      assert [PreventNavigation][..0] == [];
    }
  }

  /** `loadingFinished` placed between an update's immediate and deferred effects. */
  lemma FinishAfterUpdate(u: Update)
    requires WellFormedUpdate(u)
    ensures var actions := u.now + [Emit("loadingFinished", [])] + u.deferred;
      && Updates(actions) == 1
      && ShowWindow !in actions
      && FinishesLast(actions)
      && CountOf(actions, Emit("loadingFinished", [])) == 1
      && actions[0] == u.now[0]
  {
    var finished := Emit("loadingFinished", []);
    NoUpdates([finished]);
    UpdatesAppend3(u.now, [finished], u.deferred);
    UpdateExcludes(u);
    FinishedBeforeDeferred(u.now, u.deferred);
    CountOne(u.now, finished, u.deferred);
  }

  /** A run of the update procedure neither prevents navigation, shows the window nor sends `loadingFinished`. */
  lemma UpdateExcludes(u: Update)
    requires WellFormedUpdate(u)
    ensures ShowWindow !in u.now && ShowWindow !in u.deferred
    ensures PreventNavigation !in u.now && PreventNavigation !in u.deferred
    ensures Emit("loadingFinished", []) !in u.now && Emit("loadingFinished", []) !in u.deferred
  {
    assert u.now == [u.now[0]] + u.now[1..];
  }

  /** No version pending at startup: `beforeLoadFinish`, then showing and focusing the window, which throws without one. */
  function ShowOnStartup(hasWindow: bool): (actions: seq<Action>)
    ensures Updates(actions) == 0
    ensures ShowWindow in actions <==> hasWindow
    ensures hasWindow ==> FinishesLast(actions) && actions[|actions| - 1] == Emit("loadingFinished", [])
    ensures |actions| > 0 && actions[0] == Emit("beforeLoadFinish", [])
    ensures hasWindow ==> actions == [Emit("beforeLoadFinish", []), ShowWindow, FocusWindow, Emit("loadingFinished", [])]
    ensures !hasWindow ==> actions == [Emit("beforeLoadFinish", []), Crash("TypeError: window is null")]
  {
    var announce := Emit("beforeLoadFinish", []);
    var actions := if hasWindow then [announce, ShowWindow, FocusWindow, Emit("loadingFinished", [])]
                   else [announce, Crash("TypeError: window is null")];
    NoUpdates(actions);
    if hasWindow then FinishedAtEnd(actions); actions
    else actions
  }

  /**
   The part of `handleAppStartup` that runs while the window has not been
   shown: a pending version runs the update procedure and leaves everything
   else as it was; otherwise the window is marked loaded and shown.
   */
  function FirstLoad(c: Config, s: State): (r: Step)
    ensures r.state.versionChange == s.versionChange && r.state.pendingDesktopVersion == s.pendingDesktopVersion
    ensures r.state.window == s.window && r.state.startup == s.startup
    ensures s.versionChange ==> Updates(r.actions) == 1 && ShowWindow !in r.actions && r.state == s
    ensures !s.versionChange ==> Updates(r.actions) == 0 && r.state.windowAlreadyLoaded
    ensures ShowWindow in r.actions <==> !s.versionChange && s.window
    ensures s.window || s.versionChange ==> FinishesLast(r.actions)
    ensures s.versionChange ==> r.actions == UpdateOnStartup(c, s)
    ensures !s.versionChange ==> r.actions == ShowOnStartup(s.window)
  {
    if s.versionChange then Step(s, UpdateOnStartup(c, s))
    else Step(s.(windowAlreadyLoaded := true), ShowOnStartup(s.window))
  }

  /**
   `handleAppStartup`. Ignored for `did-stop-loading` when the app waits for
   `startupDidComplete`. Otherwise: before the window is shown, a pending
   version runs the update procedure (leaving the flag set), and without one
   the window is marked loaded, `beforeLoadFinish` is sent and the window is
   shown and focused; `this.window.show()` throws when there is no window.
   Every call that is not ignored and does not throw ends with `loadingFinished`,
   after which only a relaunch the update deferred can follow.
   */
  function HandleAppStartup(c: Config, s: State, startupDidCompleteEvent: bool): (r: Step)
    ensures Ignored(c, startupDidCompleteEvent) ==> r == Step(s, [])
    ensures !Ignored(c, startupDidCompleteEvent) ==> !r.state.startup
    ensures r.state.versionChange == s.versionChange && r.state.pendingDesktopVersion == s.pendingDesktopVersion
    ensures r.state.window == s.window
    ensures s.windowAlreadyLoaded ==> r.state.windowAlreadyLoaded
    ensures s.windowAlreadyLoaded && !Ignored(c, startupDidCompleteEvent) ==> r.actions == [Emit("loadingFinished", [])]
    ensures !Ignored(c, startupDidCompleteEvent) && (s.window || s.windowAlreadyLoaded || s.versionChange) ==>
      FinishesLast(r.actions)
    ensures !s.windowAlreadyLoaded && s.versionChange && !Ignored(c, startupDidCompleteEvent) ==>
      && Updates(r.actions) == 1 && ShowWindow !in r.actions
      && !r.state.windowAlreadyLoaded && r.state.versionChange
    ensures (Updates(r.actions) > 0 <==> (!Ignored(c, startupDidCompleteEvent) && !s.windowAlreadyLoaded && s.versionChange))
    ensures ShowWindow in r.actions <==>
      !Ignored(c, startupDidCompleteEvent) && !s.windowAlreadyLoaded && !s.versionChange && s.window
    ensures !Ignored(c, startupDidCompleteEvent) && !s.windowAlreadyLoaded && !s.versionChange ==>
      |r.actions| > 0 && r.actions[0] == Emit("beforeLoadFinish", [])
    ensures !Ignored(c, startupDidCompleteEvent) && !s.windowAlreadyLoaded && !s.versionChange && s.window ==>
      r.actions == [Emit("beforeLoadFinish", []), ShowWindow, FocusWindow, Emit("loadingFinished", [])]
    ensures r.state.windowAlreadyLoaded <==>
      s.windowAlreadyLoaded || (!Ignored(c, startupDidCompleteEvent) && !s.versionChange)
  {
    if Ignored(c, startupDidCompleteEvent) then Step(s, [])
    else if !s.windowAlreadyLoaded then FirstLoad(c, s.(startup := false))
    else
      var actions := [Emit("loadingFinished", [])];
      NoUpdates(actions);
      FinishedAtEnd(actions);
      Step(s.(startup := false), actions)
  }

  /**
   When the window is first reported loaded with a version pending and the
   desktop part changed, `loadingFinished` goes out before the deferred
   relaunch and quit.
   */
  lemma StartupRelaunchOrder(c: Config, s: State, startupDidCompleteEvent: bool)
    requires !Ignored(c, startupDidCompleteEvent) && !s.windowAlreadyLoaded && s.versionChange
    requires Truthy(Get(c.settings, "desktopHCP")) && !StrictEquals(Get(c.settings, "desktopVersion"), s.pendingDesktopVersion)
    ensures HandleAppStartup(c, s, startupDidCompleteEvent).actions ==
      [Emit("beforeReload", [c.pendingBundleVersion, DesktopUpdate(c, s)]), Emit("loadingFinished", []),
       Relaunch(RelaunchArgs(c.argv)), Quit]
  {
    assert DesktopUpdate(c, s.(startup := false)) == DesktopUpdate(c, s);
  }

  /**
   The same signal without a desktop update: the autoupdate module resets and
   the local server is initialised again as an update, both before
   `loadingFinished`.
   */
  lemma StartupResetOrder(c: Config, s: State, startupDidCompleteEvent: bool)
    requires !Ignored(c, startupDidCompleteEvent) && !s.windowAlreadyLoaded && s.versionChange
    requires !(Truthy(Get(c.settings, "desktopHCP")) && !StrictEquals(Get(c.settings, "desktopVersion"), s.pendingDesktopVersion))
    ensures HandleAppStartup(c, s, startupDidCompleteEvent).actions ==
      [Emit("beforeReload", [c.pendingBundleVersion, DesktopUpdate(c, s)]), ResetAutoupdate,
       InitLocalServer(true), Emit("loadingFinished", [])]
  {
    assert DesktopUpdate(c, s.(startup := false)) == DesktopUpdate(c, s);
  }

  // ---------------------------------------------------------------- events

  /**
   `will-navigate`: with a new version pending, the navigation is prevented,
   the flag cleared and the update procedure run, a deferred relaunch last;
   otherwise nothing happens.
   */
  function OnWillNavigate(c: Config, s: State): (r: Step)
    ensures !s.versionChange ==> r == Step(s, [])
    ensures s.versionChange ==>
      && r.state == s.(versionChange := false)
      && |r.actions| > 0
      && r.actions[0] == PreventNavigation
      && Updates(r.actions) == 1
      && CountOf(r.actions, PreventNavigation) == 1
      && r.actions[1] == Emit("beforeReload", [c.pendingBundleVersion, DesktopUpdate(c, s)])
    ensures s.versionChange && Truthy(DesktopUpdate(c, s)) ==>
      |r.actions| == 4 && r.actions[2..] == [Relaunch(RelaunchArgs(c.argv)), Quit]
    ensures s.versionChange && !Truthy(DesktopUpdate(c, s)) ==>
      |r.actions| == 4 && r.actions[2..] == [ResetAutoupdate, InitLocalServer(true)]
  {
    if s.versionChange then
      var cleared := s.(versionChange := false);
      var u := UpdateToNewVersion(c, cleared);
      assert DesktopUpdate(c, cleared) == DesktopUpdate(c, s);
      PreventBeforeUpdate(u);
      NavigationUpdateShape(c, cleared);
      Step(cleared, [PreventNavigation] + (u.now + u.deferred))
    else Step(s, [])
  }

  /**
   One event. The version listeners only set flags: they perform nothing, and
   `revertVersionReady` keeps the pending desktop version. Only version
   announcements set the flag and only navigation clears it.
   */
  function Transition(c: Config, s: State, e: Event): (r: Step)
    ensures IsVersionEvent(e) ==> r.state.versionChange && r.actions == []
    ensures e.NewVersionReady? ==> r.state.pendingDesktopVersion == e.desktopVersion
    ensures !e.NewVersionReady? ==> r.state.pendingDesktopVersion == s.pendingDesktopVersion
    ensures !IsVersionEvent(e) && !e.WillNavigate? ==> r.state.versionChange == s.versionChange
    ensures e.WillNavigate? ==> !r.state.versionChange
    ensures s.windowAlreadyLoaded ==> r.state.windowAlreadyLoaded
    ensures !IsStartupEvent(e) ==> r.state.windowAlreadyLoaded == s.windowAlreadyLoaded
    ensures e.WindowCreated? ==> r.state.window
    ensures e.WindowClosed? ==> !r.state.window
    ensures !e.WindowCreated? && !e.WindowClosed? ==> r.state.window == s.window
  {
    match e
    case NewVersionReady(_, desktopVersion) => Step(s.(versionChange := true, pendingDesktopVersion := desktopVersion), [])
    case RevertVersionReady => Step(s.(versionChange := true), [])
    case WillNavigate(_) => OnWillNavigate(c, s)
    case DidStopLoading => HandleAppStartup(c, s, false)
    case StartupDidComplete => HandleAppStartup(c, s, true)
    case WindowCreated => Step(s.(window := true), [])
    case WindowClosed => Step(s.(window := false), [])
  }

  /** The state and effects after a sequence of events, in order. */
  function Run(c: Config, s: State, events: seq<Event>): Step
    decreases |events|
  {
    if |events| == 0 then Step(s, [])
    else
      var first := Transition(c, s, events[0]);
      var rest := Run(c, first.state, events[1..]);
      Step(rest.state, first.actions + rest.actions)
  }

  predicate IsVersionEvent(e: Event) {
    e.NewVersionReady? || e.RevertVersionReady?
  }

  predicate NoVersionEvents(events: seq<Event>) {
    forall i :: 0 <= i < |events| ==> !IsVersionEvent(events[i])
  }

  // ---------------------------------------------------------------- trace properties

  /**
   With no new version pending and none announced, no navigation is ever
   prevented and the update procedure never runs.
   */
  lemma {:induction false} FlagClearStaysQuiet(c: Config, s: State, events: seq<Event>)
    requires !s.versionChange && NoVersionEvents(events)
    ensures !Run(c, s, events).state.versionChange
    ensures PreventNavigation !in Run(c, s, events).actions
    ensures Updates(Run(c, s, events).actions) == 0
    decreases |events|
  {
    if |events| > 0 {
      var first := Transition(c, s, events[0]);
      QuietStep(c, s, events[0]);
      assert NoVersionEvents(events[1..]) by {
        forall i | 0 <= i < |events[1..]| ensures !IsVersionEvent(events[1..][i]) {
          assert events[1..][i] == events[i + 1];
        }
      }
      FlagClearStaysQuiet(c, first.state, events[1..]);
      UpdatesAppend(first.actions, Run(c, first.state, events[1..]).actions);
    }
  }

  /** One event other than a version announcement, with no version pending. */
  lemma QuietStep(c: Config, s: State, e: Event)
    requires !s.versionChange && !IsVersionEvent(e)
    ensures !Transition(c, s, e).state.versionChange
    ensures PreventNavigation !in Transition(c, s, e).actions
    ensures Updates(Transition(c, s, e).actions) == 0
  {
    if e.DidStopLoading? || e.StartupDidComplete? {
      var r := HandleAppStartup(c, s, e.StartupDidComplete?);
      assert forall i :: 0 <= i < |r.actions| ==> r.actions[i] != PreventNavigation;
    }
  }

  /**
   From the state the constructor leaves, no navigation is prevented and no
   update runs until a new version is announced.
   */
  lemma QuietFromLaunch(c: Config, events: seq<Event>)
    requires NoVersionEvents(events)
    ensures PreventNavigation !in Run(c, Initial, events).actions
    ensures Updates(Run(c, Initial, events).actions) == 0
  {
    FlagClearStaysQuiet(c, Initial, events);
  }

  /**
   A navigation while a new version is pending is prevented and runs the
   update procedure exactly once; any further navigations, until a new
   `newVersionReady` or `revertVersionReady`, trigger nothing.
   */
  lemma {:induction false} NavigationUpdatesOnce(c: Config, s: State, url: string, events: seq<Event>)
    requires s.versionChange && NoVersionEvents(events)
    ensures var r := Run(c, s, [WillNavigate(url)] + events);
      && r.actions[0] == PreventNavigation
      && Updates(r.actions) == 1
      && CountOf(r.actions, PreventNavigation) == 1
      && !r.state.versionChange
  {
    var first := Transition(c, s, WillNavigate(url));
    RunCons(c, s, WillNavigate(url), events);
    NavigationStep(c, s, url);
    FlagClearStaysQuiet(c, first.state, events);
    var rest := Run(c, first.state, events);
    UpdatesAppend(first.actions, rest.actions);
    CountOfAppend(first.actions, rest.actions, PreventNavigation);
  }

  /** The facts about a flagged navigation the trace lemmas need. */
  lemma NavigationStep(c: Config, s: State, url: string)
    requires s.versionChange
    ensures var first := Transition(c, s, WillNavigate(url));
      && |first.actions| > 0 && first.actions[0] == PreventNavigation
      && Updates(first.actions) == 1
      && CountOf(first.actions, PreventNavigation) == 1
      && !first.state.versionChange
  {
  }

  /** Running `e` then `events` is the step for `e` followed by the run of `events`. */
  lemma RunCons(c: Config, s: State, e: Event, events: seq<Event>)
    ensures var first := Transition(c, s, e);
      Run(c, s, [e] + events) == Step(Run(c, first.state, events).state, first.actions + Run(c, first.state, events).actions)
  {
    assert ([e] + events)[0] == e && ([e] + events)[1..] == events;
  }

  /** Once the window has been shown it stays marked as shown, whatever happens. */
  lemma {:induction false} WindowLoadedIsPermanent(c: Config, s: State, events: seq<Event>)
    requires s.windowAlreadyLoaded
    ensures Run(c, s, events).state.windowAlreadyLoaded
    decreases |events|
  {
    if |events| > 0 {
      WindowLoadedIsPermanent(c, Transition(c, s, events[0]).state, events[1..]);
    }
  }

  predicate IsStartupEvent(e: Event) {
    e.DidStopLoading? || e.StartupDidComplete?
  }

  /** How many of the startup signals `handleAppStartup` does not ignore. */
  function Heeded(c: Config, events: seq<Event>): nat
    decreases |events|
  {
    if |events| == 0 then 0
    else (if Ignored(c, events[0].StartupDidComplete?) then 0 else 1) + Heeded(c, events[1..])
  }

  /** `n` copies of `loadingFinished`. */
  function Finishes(n: nat): (actions: seq<Action>)
    ensures |actions| == n
    ensures forall i :: 0 <= i < n ==> actions[i] == Emit("loadingFinished", [])
  {
    seq(n, _ => Emit("loadingFinished", []))
  }

  lemma FinishesCons(n: nat)
    ensures Finishes(n + 1) == [Emit("loadingFinished", [])] + Finishes(n)
  {
  }

  /**
   Once the window has been shown, any number of startup signals neither show
   it again nor run an update: each signal that is not ignored only sends
   `loadingFinished`.
   */
  lemma {:induction false} StartupIdempotentOnceShown(c: Config, s: State, events: seq<Event>)
    requires s.windowAlreadyLoaded
    requires forall i :: 0 <= i < |events| ==> IsStartupEvent(events[i])
    ensures var r := Run(c, s, events);
      && r.state.windowAlreadyLoaded
      && r.state.versionChange == s.versionChange
      && r.actions == Finishes(Heeded(c, events))
    decreases |events|
  {
    if |events| > 0 {
      var ignored := Ignored(c, events[0].StartupDidComplete?);
      var first := HandleAppStartup(c, s, events[0].StartupDidComplete?);
      assert Transition(c, s, events[0]) == first;
      var tail := events[1..];
      assert forall i :: 0 <= i < |tail| ==> IsStartupEvent(tail[i]) by {
        forall i | 0 <= i < |tail| ensures IsStartupEvent(tail[i]) {
          assert tail[i] == events[i + 1];
        }
      }
      StartupIdempotentOnceShown(c, first.state, tail);
      var rest := Run(c, first.state, tail);
      assert Run(c, s, events).actions == first.actions + rest.actions;
      if ignored {
        assert first.actions == [];
        assert Heeded(c, events) == Heeded(c, tail);
      } else {
        assert first.actions == [Emit("loadingFinished", [])];
        assert Heeded(c, events) == Heeded(c, tail) + 1;
        FinishesCons(Heeded(c, tail));
      }
    }
  }

  /**
   The update decision inside `handleAppStartup` does not clear the flag, so
   two startup signals before the window is shown, with a version pending,
   run the update procedure twice.
   */
  lemma RepeatedStartupRepeatsUpdate(c: Config, s: State)
    requires s.versionChange && !s.windowAlreadyLoaded
    ensures Updates(Run(c, s, [StartupDidComplete, StartupDidComplete]).actions) == 2
    ensures ShowWindow !in Run(c, s, [StartupDidComplete, StartupDidComplete]).actions
  {
    var first := Transition(c, s, StartupDidComplete);
    var second := Transition(c, first.state, StartupDidComplete);
    StartupUpdateStep(c, s);
    StartupUpdateStep(c, first.state);
    RunCons(c, s, StartupDidComplete, [StartupDidComplete]);
    RunCons(c, first.state, StartupDidComplete, []);
    assert [StartupDidComplete] + [StartupDidComplete] == [StartupDidComplete, StartupDidComplete];
    assert [StartupDidComplete] + [] == [StartupDidComplete];
    assert second.actions + [] == second.actions;
    UpdatesAppend(first.actions, second.actions);
  }

  /** The facts about a `startupDidComplete` with a version pending and the window not shown. */
  lemma StartupUpdateStep(c: Config, s: State)
    requires s.versionChange && !s.windowAlreadyLoaded
    ensures var first := Transition(c, s, StartupDidComplete);
      && Updates(first.actions) == 1
      && ShowWindow !in first.actions
      && first.state.versionChange && !first.state.windowAlreadyLoaded
  {
  }

  /**
   However the events interleave, the window is shown at most once, and never
   once it has been marked as shown: showing it marks it.
   */
  lemma {:induction false} ShowsAtMostOnce(c: Config, s: State, events: seq<Event>)
    ensures CountOf(Run(c, s, events).actions, ShowWindow) <= (if s.windowAlreadyLoaded then 0 else 1)
    decreases |events|
  {
    if |events| > 0 {
      var e := events[0];
      var tail := events[1..];
      assert events == [e] + tail;
      var first := Transition(c, s, e);
      RunCons(c, s, e, tail);
      ShowStep(c, s, e);
      ShowsAtMostOnce(c, first.state, tail);
      CountOfAppend(first.actions, Run(c, first.state, tail).actions, ShowWindow);
    }
  }

  /** One event shows the window at most once, only if it was not shown before, and marks it shown. */
  lemma ShowStep(c: Config, s: State, e: Event)
    ensures var first := Transition(c, s, e);
      && CountOf(first.actions, ShowWindow) <= (if s.windowAlreadyLoaded then 0 else 1)
      && (CountOf(first.actions, ShowWindow) > 0 ==> first.state.windowAlreadyLoaded)
  {
    if IsStartupEvent(e) {
      assert Transition(c, s, e) == HandleAppStartup(c, s, e.StartupDidComplete?);
      StartupShowStep(c, s, e.StartupDidComplete?);
    } else {
      OtherEventHidesWindow(c, s, e);
    }
  }

  /** Only the startup signals can show the window. */
  lemma OtherEventHidesWindow(c: Config, s: State, e: Event)
    requires !IsStartupEvent(e)
    ensures ShowWindow !in Transition(c, s, e).actions
  {
    if e.WillNavigate? {
      assert Transition(c, s, e) == OnWillNavigate(c, s);
      NavigationHidesWindow(c, s);
    }
  }

  lemma NavigationHidesWindow(c: Config, s: State)
    ensures ShowWindow !in OnWillNavigate(c, s).actions
  {
    if s.versionChange {
      var u := UpdateToNewVersion(c, s.(versionChange := false));
      UpdateExcludes(u);
      assert OnWillNavigate(c, s).actions == [PreventNavigation] + (u.now + u.deferred);
    }
  }

  /** One startup signal shows the window at most once, only if it was not shown before, and marks it shown. */
  lemma StartupShowStep(c: Config, s: State, startupDidCompleteEvent: bool)
    ensures var first := HandleAppStartup(c, s, startupDidCompleteEvent);
      && CountOf(first.actions, ShowWindow) <= (if s.windowAlreadyLoaded then 0 else 1)
      && (CountOf(first.actions, ShowWindow) > 0 ==> first.state.windowAlreadyLoaded)
  {
    var first := HandleAppStartup(c, s, startupDidCompleteEvent);
    if ShowWindow in first.actions {
      var beforeLoadFinish := Emit("beforeLoadFinish", []);
      assert first.actions == [beforeLoadFinish] + [ShowWindow] + [FocusWindow, Emit("loadingFinished", [])];
      CountOne([beforeLoadFinish], ShowWindow, [FocusWindow, Emit("loadingFinished", [])]);
    }
  }
}

=== FILE: loader.dfy ===
/**
 How the skeleton application fills its registry of plugins and modules
 (skeleton/app.js `loadPlugins`, `loadModules`, `loadModule`,
 `readModuleConfiguration`, `prepareAutoupdateSettings`). What `require`
 and a unit's constructor do is foreign code; each unit carries the outcome
 of loading it. Directory listings, `lstat` results and parsed `module.json`
 files are inputs.
 */
module Loader {
  import opened Js
  import opened Paths
  import opened Effects

  /**
   What the registry holds under a name: a constructed unit with the settings
   it was given, a plugin class whose constructor threw, or the `undefined`
   of a plugin that has no default export.
   */
  datatype Entry = Constructed(unit: string, settings: Json) | BareClass(unit: string) | UndefinedExport

  /** `this.modules`: registry name to entry. */
  type Registry = map<string, Entry>

  /** What `require(path).default` followed by `new Default(context)` does. */
  datatype Construction = RequireThrows | NoDefaultExport | ConstructorThrows | Constructs

  /**
   The facts about the running application the loader reads: the parsed
   settings.json, the user data directory, the `.desktop` directory and the
   skeleton's own directory (`__dirname`).
   */
  datatype Host = Host(appSettings: Object, userDataDir: string, desktopPath: string, skeletonDir: string)

  // ---------------------------------------------------------------- plugins

  /** One entry of `settings.plugins`, in key order, with the outcome of loading it. */
  datatype Plugin = Plugin(name: string, options: Json, construction: Construction)

  /** The `settings` a plugin is constructed with: its options when `typeof` says object, else `{}`. */
  function PluginSettings(options: Json): Json {
    if IsObjectType(options) then options else Obj(map[])
  }

  /** What loading plugin `p` leaves in the registry under its name, unless `require` threw. */
  function PluginEntry(p: Plugin): Entry
    requires p.construction != RequireThrows
  {
    match p.construction
    case NoDefaultExport => UndefinedExport
    case ConstructorThrows => BareClass(p.name)
    case Constructs => Constructed(p.name, PluginSettings(p.options))
  }

  /**
   One step of `loadPlugins`. The class is stored under the plugin's name
   before it is constructed, so a constructor that throws leaves the class in
   the registry; a `require` that throws leaves the registry as it was.
   */
  function LoadPlugin(modules: Registry, p: Plugin): (r: Registry)
    ensures p.construction == RequireThrows ==> r == modules
    ensures p.construction != RequireThrows ==> p.name in r
    ensures forall k :: k != p.name ==> (k in r <==> k in modules) && (k in modules ==> r[k] == modules[k])
    ensures p.construction == ConstructorThrows ==> r[p.name] == BareClass(p.name)
    ensures p.construction == NoDefaultExport ==> r[p.name] == UndefinedExport
    ensures p.construction == Constructs && IsObjectType(p.options) ==> r[p.name] == Constructed(p.name, p.options)
    ensures p.construction == Constructs && !IsObjectType(p.options) ==> r[p.name] == Constructed(p.name, Obj(map[]))
  {
    match p.construction
    case RequireThrows => modules
    case _ => modules[p.name := PluginEntry(p)]
  }

  /** `loadPlugins`: every plugin in order, each failure caught and logged. */
  function LoadPlugins(modules: Registry, plugins: seq<Plugin>): Registry
    decreases |plugins|
  {
    if |plugins| == 0 then modules
    else LoadPlugin(LoadPlugins(modules, plugins[..|plugins| - 1]), plugins[|plugins| - 1])
  }

  function LoadedPluginNames(plugins: seq<Plugin>): set<string> {
    set p | p in plugins && p.construction != RequireThrows :: p.name
  }

  /** The registry gains exactly the names of the plugins whose `require` succeeded. */
  lemma {:induction false} LoadPluginsKeys(modules: Registry, plugins: seq<Plugin>)
    ensures LoadPlugins(modules, plugins).Keys == modules.Keys + LoadedPluginNames(plugins)
    decreases |plugins|
  {
    if |plugins| > 0 {
      var init := plugins[..|plugins| - 1];
      LoadPluginsKeys(modules, init);
      assert plugins == init + [plugins[|plugins| - 1]];
      assert LoadedPluginNames(plugins) == LoadedPluginNames(init) + LoadedPluginNames([plugins[|plugins| - 1]]);
    }
  }

  /**
   A plugin whose name no other plugin uses ends up in the registry according
   to its own outcome alone; when its `require` throws, the registry keeps
   whatever it held under that name before.
   */
  lemma {:induction false} LoadPluginsOwnName(modules: Registry, plugins: seq<Plugin>, i: nat)
    requires i < |plugins|
    requires forall j :: 0 <= j < |plugins| && j != i ==> plugins[j].name != plugins[i].name
    ensures var r := LoadPlugins(modules, plugins);
      if plugins[i].construction == RequireThrows
      then (plugins[i].name in r <==> plugins[i].name in modules) &&
           (plugins[i].name in modules ==> r[plugins[i].name] == modules[plugins[i].name])
      else plugins[i].name in r && r[plugins[i].name] == PluginEntry(plugins[i])
    decreases |plugins|
  {
    var n := plugins[i].name;
    var init := plugins[..|plugins| - 1];
    if i == |plugins| - 1 {
      if |init| > 0 {
        LoadPluginsUntouched(modules, init, n);
      }
    } else {
      LoadPluginsOwnName(modules, init, i);
    }
  }

  /** Plugins with other names do not touch a name. */
  lemma {:induction false} LoadPluginsUntouched(modules: Registry, plugins: seq<Plugin>, n: string)
    requires forall j :: 0 <= j < |plugins| ==> plugins[j].name != n
    ensures n in LoadPlugins(modules, plugins) <==> n in modules
    ensures n in modules ==> LoadPlugins(modules, plugins)[n] == modules[n]
    decreases |plugins|
  {
    if |plugins| > 0 {
      LoadPluginsUntouched(modules, plugins[..|plugins| - 1], n);
    }
  }

  // ---------------------------------------------------------------- module settings

  /** `join(__dirname, '..', 'extracted', name)`, without the normalisation of `.` and `..` segments. */
  function ExtractedFilesPath(skeletonDir: string, name: string): string {
    skeletonDir + "/../extracted" + (if name == "" then "" else "/" + name)
  }

  /** What `readModuleConfiguration` returns: the settings to copy and the `name` read, or `null`. */
  datatype ModuleConfig = ModuleConfig(settings: Object, moduleName: Json)

  /**
   `readModuleConfiguration`. Fails when module.json is missing or not JSON,
   when it is not an object (the `in` operator throws), and when `extract` is
   present but the name is not a string (`path.join` throws) or the settings
   are a primitive (a property cannot be created on one). Arrays have none of
   the looked-up keys. Only the presence of `extract` matters, not its value.
   */
  function ReadModuleConfiguration(moduleJson: Option<Json>, skeletonDir: string): (r: Result<ModuleConfig>)
    ensures moduleJson.None? ==> r.Failure?
    ensures r.Success? ==> moduleJson.Some? && (moduleJson.value.Obj? || moduleJson.value.Arr?)
    ensures moduleJson.Some? && moduleJson.value.Obj? && "extract" !in moduleJson.value.fields ==> r.Success?
    ensures r.Success? && moduleJson.value.Obj? && "extract" in moduleJson.value.fields ==>
      && "name" in moduleJson.value.fields && moduleJson.value.fields["name"].Str?
      && "extractedFilesPath" in r.value.settings
      && r.value.settings["extractedFilesPath"] == Str(ExtractedFilesPath(skeletonDir, moduleJson.value.fields["name"].s))
    ensures r.Success? && !(moduleJson.value.Obj? && "extract" in moduleJson.value.fields) ==>
      "extractedFilesPath" in r.value.settings ==>
        moduleJson.value.Obj? && "settings" in moduleJson.value.fields
    ensures r.Success? && !(moduleJson.value.Obj? && "name" in moduleJson.value.fields) ==> r.value.moduleName == Null
    ensures r.Success? && moduleJson.value.Obj? && "name" in moduleJson.value.fields ==>
      r.value.moduleName == moduleJson.value.fields["name"]
    ensures r.Success? && moduleJson.value.Obj? && "extract" !in moduleJson.value.fields ==>
      r.value.settings == OwnEntries(Get(moduleJson.value.fields, "settings"))
    ensures r.Success? && moduleJson.value.Obj? && "extract" in moduleJson.value.fields ==>
      r.value.settings.Keys == OwnEntries(Get(moduleJson.value.fields, "settings")).Keys + {"extractedFilesPath"} &&
      forall k :: k in OwnEntries(Get(moduleJson.value.fields, "settings")) && k != "extractedFilesPath" ==>
        r.value.settings[k] == OwnEntries(Get(moduleJson.value.fields, "settings"))[k]
    ensures r.Success? && moduleJson.value.Arr? ==> r.value == ModuleConfig(map[], Null)
    ensures moduleJson.Some? && moduleJson.value.Arr? ==> r.Success?
    ensures moduleJson.Some? && moduleJson.value.Obj? && "extract" in moduleJson.value.fields ==>
      (r.Success? <==>
        && Get(moduleJson.value.fields, "name").Str?
        && ("settings" !in moduleJson.value.fields
            || moduleJson.value.fields["settings"].Obj? || moduleJson.value.fields["settings"].Arr?))
  {
    match moduleJson
    case None => Failure("module.json could not be read or parsed")
    case Some(json) =>
      if !(json.Obj? || json.Arr?) then Failure("module.json is not an object")
      else
        var fields := if json.Obj? then json.fields else map[];
        var raw := if "settings" in fields then fields["settings"] else Obj(map[]);
        var name := if "name" in fields then fields["name"] else Null;
        if "extract" !in fields then Success(ModuleConfig(OwnEntries(raw), name))
        else if !name.Str? then Failure("the module name passed to path.join is not a string")
        else if !(raw.Obj? || raw.Arr?) then Failure("cannot create a property on a primitive")
        else
          var path := ExtractedFilesPath(skeletonDir, name.s);
          Success(ModuleConfig(OwnEntries(raw)["extractedFilesPath" := Str(path)], name))
  }

  /**
   The registry name and settings of an external module in directory
   `dirName`: the directory's parsed name (without its last extension) and
   empty settings, unless module.json was read, in which case its settings
   are copied and a truthy `name` replaces the directory-derived one.
   */
  function ExternalModule(host: Host, dirName: string, moduleJson: Option<Json>): (r: (string, Object))
    ensures moduleJson.None? ==> r == (ParseName(dirName), map[])
    ensures r.0 != ParseName(dirName) ==>
      && moduleJson.Some? && moduleJson.value.Obj? && "name" in moduleJson.value.fields
      && Truthy(moduleJson.value.fields["name"])
      && r.0 == ToPropertyKey(moduleJson.value.fields["name"])
    ensures moduleJson.Some? && moduleJson.value.Obj? && "extract" !in moduleJson.value.fields
            && "name" in moduleJson.value.fields && moduleJson.value.fields["name"].Str?
            && moduleJson.value.fields["name"].s != "" ==>
      r.0 == moduleJson.value.fields["name"].s
    ensures ReadModuleConfiguration(moduleJson, host.skeletonDir).Failure? ==> r == (ParseName(dirName), map[])
    ensures ReadModuleConfiguration(moduleJson, host.skeletonDir).Success? ==>
      r.1 == ReadModuleConfiguration(moduleJson, host.skeletonDir).value.settings
    ensures moduleJson.Some? && moduleJson.value.Obj? && ReadModuleConfiguration(moduleJson, host.skeletonDir).Success?
            && "name" in moduleJson.value.fields && Truthy(moduleJson.value.fields["name"]) ==>
      r.0 == ToPropertyKey(moduleJson.value.fields["name"])
    ensures moduleJson.Some? && moduleJson.value.Obj? && "extract" !in moduleJson.value.fields ==>
      r.1 == OwnEntries(Get(moduleJson.value.fields, "settings"))
  {
    var default := ParseName(dirName);
    match ReadModuleConfiguration(moduleJson, host.skeletonDir)
    case Failure(_) => (default, map[])
    case Success(config) =>
      (if Truthy(config.moduleName) then ToPropertyKey(config.moduleName) else default, config.settings)
  }

  /** `join(__dirname, '..', 'meteor.asar')`: the bundle shipped next to the skeleton. */
  function BundlePath(skeletonDir: string): string {
    skeletonDir + "/../meteor.asar"
  }

  /**
   `prepareAutoupdateSettings`: paths under the user data directory, the
   configured HCP URL or `null`, and the configured web app startup timeout
   unless it is falsy, in which case 20000.
   */
  function AutoupdateSettings(host: Host): (r: Object)
    ensures r.Keys == {"dataPath", "desktopBundlePath", "bundleStorePath", "customHCPUrl",
                       "initialBundlePath", "webAppStartupTimeout"}
    ensures r["dataPath"] == r["desktopBundlePath"] == r["bundleStorePath"] == Str(host.userDataDir)
    ensures Truthy(r["webAppStartupTimeout"])
    ensures Truthy(Get(host.appSettings, "webAppStartupTimeout")) ==>
      r["webAppStartupTimeout"] == host.appSettings["webAppStartupTimeout"]
    ensures !Truthy(Get(host.appSettings, "webAppStartupTimeout")) ==> r["webAppStartupTimeout"] == Num(20000)
    ensures !Truthy(Get(host.appSettings, "customHCPUrl")) ==> r["customHCPUrl"] == Null
    ensures Truthy(Get(host.appSettings, "customHCPUrl")) ==> r["customHCPUrl"] == host.appSettings["customHCPUrl"]
    ensures r["initialBundlePath"] == Str(BundlePath(host.skeletonDir))
  {
    var s := host.appSettings;
    map[
      "dataPath" := Str(host.userDataDir),
      "desktopBundlePath" := Str(host.userDataDir),
      "bundleStorePath" := Str(host.userDataDir),
      "customHCPUrl" := Or(Get(s, "customHCPUrl"), Null),
      "initialBundlePath" := Str(BundlePath(host.skeletonDir)),
      "webAppStartupTimeout" := Or(Get(s, "webAppStartupTimeout"), Num(20000))
    ]
  }

  /** The computed settings of the internal `localServer` module. */
  function LocalServerSettings(appSettings: Object): (r: Object)
    ensures r.Keys == {"localFilesystem", "allowOriginLocalServer"}
    ensures !Has(appSettings, "exposeLocalFilesystem") ==> r["localFilesystem"] == Undefined
    ensures Truthy(r["allowOriginLocalServer"]) <==> Truthy(Get(appSettings, "allowOriginLocalServer"))
    ensures !Truthy(Get(appSettings, "allowOriginLocalServer")) ==> r["allowOriginLocalServer"] == Bool(false)
    ensures Truthy(Get(appSettings, "allowOriginLocalServer")) ==>
      r["allowOriginLocalServer"] == appSettings["allowOriginLocalServer"]
    ensures r["localFilesystem"] == Get(appSettings, "exposeLocalFilesystem")
  {
    map[
      "localFilesystem" := Get(appSettings, "exposeLocalFilesystem"),
      "allowOriginLocalServer" := Or(Get(appSettings, "allowOriginLocalServer"), Bool(false))
    ]
  }

  // ---------------------------------------------------------------- modules

  /** A `*.js` file of the skeleton's internal modules directory. */
  datatype InternalFile = InternalFile(path: string, construction: Construction)

  /** Files whose path contains `module.js` (the abstract base class) are not loaded. */
  predicate Skipped(f: InternalFile) {
    Contains(f.path, "module.js")
  }

  function InternalName(path: string): string {
    ParseName(BaseName(path))
  }

  /** Internal modules get computed settings when they are `autoupdate` or `localServer`, else `{}`. */
  function InternalSettings(host: Host, name: string): Object {
    if name == "autoupdate" then AutoupdateSettings(host)
    else if name == "localServer" then LocalServerSettings(host.appSettings)
    else map[]
  }

  /** The registry being filled, the notifications sent so far, and whether an exception escaped. */
  datatype Loading = Loading(modules: Registry, actions: seq<Action>, aborted: bool)

  /**
   The internal half of `loadModules`. An internal module is loaded outside
   any `try`, so the first one that fails aborts the whole loading phase.
   */
  function LoadInternalModules(host: Host, modules: Registry, files: seq<InternalFile>): (r: Loading)
    ensures r.actions == []
    decreases |files|
  {
    if |files| == 0 then Loading(modules, [], false)
    else LoadInternalModule(host, LoadInternalModules(host, modules, files[..|files| - 1]), files[|files| - 1])
  }

  /** One internal file, unless an earlier one already aborted the phase. */
  function LoadInternalModule(host: Host, prior: Loading, f: InternalFile): (r: Loading)
    ensures r.actions == prior.actions
  {
    if prior.aborted || Skipped(f) then prior
    else if f.construction == Constructs then
      var name := InternalName(f.path);
      prior.(modules := prior.modules[name := Constructed(f.path, Obj(InternalSettings(host, name)))])
    else prior.(aborted := true)
  }

  /** The registry names of the internal files that are not skipped. */
  function InternalNames(files: seq<InternalFile>): set<string> {
    set f | f in files && !Skipped(f) :: InternalName(f.path)
  }

  lemma InternalNamesSnoc(files: seq<InternalFile>, f: InternalFile)
    ensures InternalNames(files + [f]) == InternalNames(files) + (if Skipped(f) then {} else {InternalName(f.path)})
  {
  }

  /** A completed internal phase adds exactly the names of the files that are not skipped. */
  lemma {:induction false} InternalKeys(host: Host, modules: Registry, files: seq<InternalFile>)
    ensures var r := LoadInternalModules(host, modules, files);
      !r.aborted ==> r.modules.Keys == modules.Keys + InternalNames(files)
    decreases |files|
  {
    if |files| > 0 {
      var init := files[..|files| - 1];
      var f := files[|files| - 1];
      assert files == init + [f];
      InternalKeys(host, modules, init);
      InternalNamesSnoc(init, f);
      StepKeys(host, LoadInternalModules(host, modules, init), f);
    }
  }

  /** One step adds the file's name, unless it is skipped, and never revives an aborted phase. */
  lemma StepKeys(host: Host, prior: Loading, f: InternalFile)
    ensures var r := LoadInternalModule(host, prior, f);
      !r.aborted ==>
        && !prior.aborted
        && r.modules.Keys == prior.modules.Keys + (if Skipped(f) then {} else {InternalName(f.path)})
  {
  }

  /**
   An internal file that is not skipped, and whose name no later file takes
   over, stays registered under its name as a constructed module with the
   settings internal modules get.
   */
  lemma {:induction false} InternalEntryKept(host: Host, modules: Registry, files: seq<InternalFile>, i: nat)
    requires i < |files| && !Skipped(files[i])
    requires forall j :: i < j < |files| && !Skipped(files[j]) ==> InternalName(files[j].path) != InternalName(files[i].path)
    ensures var r := LoadInternalModules(host, modules, files);
      var name := InternalName(files[i].path);
      !r.aborted ==> name in r.modules && r.modules[name] == Constructed(files[i].path, Obj(InternalSettings(host, name)))
    decreases |files|
  {
    var init := files[..|files| - 1];
    var f := files[|files| - 1];
    var name := InternalName(files[i].path);
    if i < |files| - 1 {
      assert init[i] == files[i];
      assert forall j :: i < j < |init| ==> init[j] == files[j];
      InternalEntryKept(host, modules, init, i);
      StepKeeps(host, LoadInternalModules(host, modules, init), f, name);
    }
  }

  /** A step for a skipped file, or one with another name, leaves the entry `k` as it was. */
  lemma StepKeeps(host: Host, prior: Loading, f: InternalFile, k: string)
    requires Skipped(f) || InternalName(f.path) != k
    ensures var r := LoadInternalModule(host, prior, f);
      !r.aborted ==> !prior.aborted && (k in prior.modules ==> k in r.modules && r.modules[k] == prior.modules[k])
  {
  }

  /**
   The same entry by name: `autoupdate` gets the autoupdate settings,
   `localServer` the local server settings, and any other internal module `{}`.
   */
  lemma InternalEntry(host: Host, modules: Registry, files: seq<InternalFile>, i: nat)
    requires i < |files| && !Skipped(files[i])
    requires forall j :: i < j < |files| && !Skipped(files[j]) ==> InternalName(files[j].path) != InternalName(files[i].path)
    ensures var r := LoadInternalModules(host, modules, files);
      var name := InternalName(files[i].path);
      !r.aborted ==>
        && name in r.modules
        && r.modules[name].Constructed?
        && r.modules[name].unit == files[i].path
        && (name == "autoupdate" ==> r.modules[name].settings == Obj(AutoupdateSettings(host)))
        && (name == "localServer" ==> r.modules[name].settings == Obj(LocalServerSettings(host.appSettings)))
        && (name != "autoupdate" && name != "localServer" ==> r.modules[name].settings == Obj(map[]))
  {
    InternalEntryKept(host, modules, files, i);
  }

  function Unskipped(files: seq<InternalFile>): seq<InternalFile>
    decreases |files|
  {
    if |files| == 0 then []
    else
      var init := Unskipped(files[..|files| - 1]);
      var f := files[|files| - 1];
      if Skipped(f) then init else init + [f]
  }

  /** Loading the internal modules is the same as loading the ones not skipped. */
  lemma {:induction false} SkippedFilesIgnored(host: Host, modules: Registry, files: seq<InternalFile>)
    ensures LoadInternalModules(host, modules, files) == LoadInternalModules(host, modules, Unskipped(files))
    decreases |files|
  {
    if |files| > 0 {
      var init := files[..|files| - 1];
      var f := files[|files| - 1];
      SkippedFilesIgnored(host, modules, init);
      if !Skipped(f) {
        var u := Unskipped(files);
        assert u == Unskipped(init) + [f];
        assert u[..|u| - 1] == Unskipped(init);
        assert u[|u| - 1] == f;
        calc {
          LoadInternalModules(host, modules, u);
          LoadInternalModule(host, LoadInternalModules(host, modules, Unskipped(init)), f);
          LoadInternalModule(host, LoadInternalModules(host, modules, init), f);
        }
      } else {
        assert Unskipped(files) == Unskipped(init);
      }
    }
  }

  /** Internal loading aborts exactly when a file that is not skipped fails to load. */
  lemma {:induction false} InternalAbortsIffFailure(host: Host, modules: Registry, files: seq<InternalFile>)
    ensures LoadInternalModules(host, modules, files).aborted <==>
      exists f :: f in files && !Skipped(f) && f.construction != Constructs
    decreases |files|
  {
    if |files| > 0 {
      var init := files[..|files| - 1];
      InternalAbortsIffFailure(host, modules, init);
      assert files == init + [files[|files| - 1]];
    }
  }

  /** What `lstatSync` says about an entry of `.desktop/modules`. */
  datatype Lstat = LstatThrows | NotADirectory | Directory

  /** An entry of `.desktop/modules` with what the filesystem and `require` hold for it. */
  datatype ModuleDir = ModuleDir(dirName: string, lstat: Lstat, moduleJson: Option<Json>, construction: Construction)

  /** `fs.readdirSync` of `.desktop/modules`: the entries, or an error code. */
  datatype Readdir = Listing(dirs: seq<ModuleDir>) | ReaddirFails(code: string)

  predicate Loads(d: ModuleDir) {
    d.lstat == Directory && d.construction == Constructs
  }

  function ExternalName(host: Host, d: ModuleDir): string {
    ExternalModule(host, d.dirName, d.moduleJson).0
  }

  function ModuleFailed(d: ModuleDir): Action {
    Emit("moduleLoadFailed", [Str(d.dirName)])
  }

  /**
   One directory of `.desktop/modules`, inside its own `try`: entries that
   are not directories are passed over, and any failure leaves the registry
   as it was and notifies `moduleLoadFailed` with the directory name.
   */
  function LoadExternalModule(host: Host, modules: Registry, d: ModuleDir): (r: (Registry, seq<Action>))
    ensures Loads(d) ==>
      r.1 == [] && r.0 == modules[ExternalName(host, d) := Constructed(host.desktopPath + "/modules/" + d.dirName,
                                                                       Obj(ExternalModule(host, d.dirName, d.moduleJson).1))]
    ensures !Loads(d) ==> r.0 == modules
    ensures !Loads(d) && d.lstat != NotADirectory ==> r.1 == [ModuleFailed(d)]
    ensures d.lstat == NotADirectory ==> r.1 == []
  {
    match d.lstat
    case LstatThrows => (modules, [ModuleFailed(d)])
    case NotADirectory => (modules, [])
    case Directory =>
      var (name, settings) := ExternalModule(host, d.dirName, d.moduleJson);
      if d.construction == Constructs then
        (modules[name := Constructed(host.desktopPath + "/modules/" + d.dirName, Obj(settings))], [])
      else (modules, [ModuleFailed(d)])
  }

  function LoadExternalModules(host: Host, modules: Registry, dirs: seq<ModuleDir>): (Registry, seq<Action>)
    decreases |dirs|
  {
    if |dirs| == 0 then (modules, [])
    else
      var prior := LoadExternalModules(host, modules, dirs[..|dirs| - 1]);
      var step := LoadExternalModule(host, prior.0, dirs[|dirs| - 1]);
      (step.0, prior.1 + step.1)
  }

  function LoadedNames(host: Host, dirs: seq<ModuleDir>): set<string> {
    set d | d in dirs && Loads(d) :: ExternalName(host, d)
  }

  /** Loading one more directory is one more step on the registry the listing before it left. */
  lemma ExternalSnoc(host: Host, modules: Registry, dirs: seq<ModuleDir>, d: ModuleDir)
    ensures var prior := LoadExternalModules(host, modules, dirs);
      var step := LoadExternalModule(host, prior.0, d);
      LoadExternalModules(host, modules, dirs + [d]) == (step.0, prior.1 + step.1)
  {
    assert (dirs + [d])[..|dirs + [d]| - 1] == dirs;
  }

  lemma LoadedNamesSnoc(host: Host, dirs: seq<ModuleDir>, d: ModuleDir)
    ensures LoadedNames(host, dirs + [d]) ==
      LoadedNames(host, dirs) + (if Loads(d) then {ExternalName(host, d)} else {})
  {
  }

  /** The registry gains exactly the names of the directories that load. */
  lemma {:induction false} ExternalKeys(host: Host, modules: Registry, dirs: seq<ModuleDir>)
    ensures LoadExternalModules(host, modules, dirs).0.Keys == modules.Keys + LoadedNames(host, dirs)
    decreases |dirs|
  {
    if |dirs| > 0 {
      var init := dirs[..|dirs| - 1];
      var last := dirs[|dirs| - 1];
      assert dirs == init + [last];
      ExternalKeys(host, modules, init);
      ExternalSnoc(host, modules, init, last);
      LoadedNamesSnoc(host, init, last);
    }
  }

  /**
   Fault isolation: a directory that fails to load, wherever it sits in the
   listing, leaves the same registry as if it were not there, so the
   directories after it load as they would have.
   */
  lemma {:induction false} FailedDirectoryIsolated(host: Host, modules: Registry, before: seq<ModuleDir>, bad: ModuleDir, after: seq<ModuleDir>)
    requires !Loads(bad)
    ensures LoadExternalModules(host, modules, before + [bad] + after).0 ==
            LoadExternalModules(host, modules, before + after).0
    decreases |after|
  {
    if |after| == 0 {
      ExternalSnoc(host, modules, before, bad);
      assert before + [bad] + after == before + [bad];
      assert before + after == before;
    } else {
      var init := after[..|after| - 1];
      var last := after[|after| - 1];
      FailedDirectoryIsolated(host, modules, before, bad, init);
      ExternalSnoc(host, modules, before + [bad] + init, last);
      ExternalSnoc(host, modules, before + init, last);
      assert before + [bad] + after == (before + [bad] + init) + [last];
      assert before + after == (before + init) + [last];
    }
  }

  /** Every directory that does not load sends exactly one `moduleLoadFailed`, unless it is not a directory. */
  lemma {:induction false} FailureNotifications(host: Host, modules: Registry, dirs: seq<ModuleDir>)
    ensures forall a :: a in LoadExternalModules(host, modules, dirs).1 <==>
      exists d :: d in dirs && !Loads(d) && d.lstat != NotADirectory && a == ModuleFailed(d)
    decreases |dirs|
  {
    if |dirs| > 0 {
      var init := dirs[..|dirs| - 1];
      FailureNotifications(host, modules, init);
      assert dirs == init + [dirs[|dirs| - 1]];
    }
  }

  /**
   `loadModules`: the internal modules, then every directory of
   `.desktop/modules`. A missing directory (`ENOENT`) means no external
   modules; any other `readdir` error escapes and aborts the phase.
   */
  function LoadModules(host: Host, modules: Registry, files: seq<InternalFile>, readdir: Readdir): (r: Loading)
    ensures r.aborted <==>
      LoadInternalModules(host, modules, files).aborted || (readdir.ReaddirFails? && readdir.code != "ENOENT")
    ensures readdir == ReaddirFails("ENOENT") ==> r == LoadInternalModules(host, modules, files)
  {
    var internal := LoadInternalModules(host, modules, files);
    if internal.aborted then internal
    else
      match readdir
      case ReaddirFails(code) => if code == "ENOENT" then internal else internal.(aborted := true)
      case Listing(dirs) =>
        var (registry, actions) := LoadExternalModules(host, internal.modules, dirs);
        Loading(registry, internal.actions + actions, false)
  }

  /**
   A completed module phase registers the names already there, the names of
   the internal files that are not skipped and those of the directories that
   load, and nothing else.
   */
  lemma ModulesKeys(host: Host, modules: Registry, files: seq<InternalFile>, dirs: seq<ModuleDir>)
    ensures var r := LoadModules(host, modules, files, Listing(dirs));
      !r.aborted ==>
      r.modules.Keys == modules.Keys + InternalNames(files) + LoadedNames(host, dirs)
  {
    InternalKeys(host, modules, files);
    ExternalKeys(host, LoadInternalModules(host, modules, files).modules, dirs);
  }

  /** The names of the module directories that load; none when the directory could not be listed. */
  function ListedNames(host: Host, readdir: Readdir): set<string> {
    match readdir
    case Listing(dirs) => LoadedNames(host, dirs)
    case ReaddirFails(_) => {}
  }
}

=== FILE: paths.dfy ===
/**
 The few path and string operations the skeleton application's decisions rest
 on: the `name` part of Node's `path.parse`, substring search, and
 `String.prototype.substr` with a start offset.
 */
module Paths {

  /** The index of the last occurrence of `c` in `s`, or -1. */
  function LastIndexOf(s: string, c: char): (r: int)
    ensures -1 <= r < |s|
    ensures r >= 0 ==> s[r] == c && forall j :: r < j < |s| ==> s[j] != c
    ensures r == -1 <==> c !in s
  {
    if |s| == 0 then -1
    else if s[|s| - 1] == c then |s| - 1
    else
      var r := LastIndexOf(s[..|s| - 1], c);
      assert s == s[..|s| - 1] + [s[|s| - 1]];
      r
  }

  /** The last component of a `/`-separated path. */
  function BaseName(path: string): (r: string)
    ensures '/' !in r
    ensures |r| <= |path| && r == path[|path| - |r|..]
  {
    var slash := LastIndexOf(path, '/');
    var r := path[slash + 1..];
    forall j | 0 <= j < |r|
      ensures r[j] != '/'
    {
      assert r[j] == path[slash + 1 + j];
    }
    assert |path| - |r| == slash + 1;
    r
  }

  /**
   Node's `path.parse(base).name` for a base name: the name loses its
   extension, which runs from the last dot, unless there is no dot, the last
   dot is the first character (".profile") or the name is "..".
   */
  function ParseName(base: string): (r: string)
    ensures r <= base
    ensures '.' !in base ==> r == base
    ensures |r| < |base| ==> base[|r|] == '.' && '.' !in base[|r| + 1..]
    ensures |r| < |base| <==> base != ".." && exists i :: 0 < i < |base| && base[i] == '.'
  {
    var dot := LastIndexOf(base, '.');
    if dot <= 0 || base == ".." then
      assert base != ".." ==> forall i :: 0 < i < |base| ==> base[i] != '.';
      base
    else
      var ext := base[dot + 1..];
      assert forall j :: 0 <= j < |ext| ==> ext[j] == base[dot + 1 + j];
      base[..dot]
  }

  predicate IsSubstringAt(s: string, sub: string, k: nat) {
    k + |sub| <= |s| && s[k..k + |sub|] == sub
  }

  /** `s.indexOf(sub) !== -1`. */
  predicate Contains(s: string, sub: string) {
    exists k: nat | k <= |s| :: IsSubstringAt(s, sub, k)
  }

  /** `s.substr(start)`: the suffix from `start`, or "" when `s` is shorter. */
  function Substr(s: string, start: nat): (r: string)
    ensures start <= |s| ==> s == s[..start] + r
    ensures start >= |s| ==> r == ""
  {
    if start <= |s| then s[start..] else ""
  }
}

=== FILE: startup.dfy ===
/**
 The staged start of the skeleton application (skeleton/app.js `onReady`,
 `loadDesktopJs`) and its reaction to a restarted local server
 (`onServerRestarted`).
 */
module Startup {
  import opened Js
  import opened Effects
  import opened Loader
  import opened EventBus
  import opened Window

  /** The registry after `onReady` and the effects it performed, in order. */
  datatype Boot = Boot(modules: Registry, actions: seq<Action>)

  /**
   `loadDesktopJs`: a constructed desktop.js is registered as the `desktop`
   module and announced with `desktopLoaded`; a failing one is logged and
   changes nothing. The source passes the new instance along with
   `desktopLoaded`; an instance is not a JSON value, so the effect here
   carries no arguments.
   */
  function LoadDesktopJs(modules: Registry, desktop: Construction): (r: (Registry, seq<Action>))
    ensures desktop != Constructs ==> r == (modules, [])
    ensures desktop == Constructs ==> "desktop" in r.0 && r.1 == [Emit("desktopLoaded", [])]
    ensures forall k :: k != "desktop" ==> (k in r.0 <==> k in modules) && (k in modules ==> r.0[k] == modules[k])
    ensures r.0.Keys == modules.Keys + (if desktop == Constructs then {"desktop"} else {})
  {
    if desktop == Constructs
    then (modules["desktop" := Constructed("desktop.js", Undefined)], [Emit("desktopLoaded", [])])
    else (modules, [])
  }

  predicate IsInstance(modules: Registry, name: string) {
    name in modules && modules[name].Constructed?
  }

  /** The registry and notifications once plugins and modules are loaded. */
  function ModulesLoaded(host: Host, plugins: seq<Plugin>, files: seq<InternalFile>, readdir: Readdir): Loading {
    LoadModules(host, LoadPlugins(map[], plugins), files, readdir)
  }

  /** The local server can be started: both modules it needs are constructed. */
  predicate ServerCanStart(modules: Registry) {
    IsInstance(modules, "localServer") && IsInstance(modules, "autoupdate")
  }

  /**
   The last stage of `onReady`: the local server gets its callbacks,
   `beforeLocalServerInit` goes out, the server is initialised and
   `afterInitialization` follows. A missing `localServer` or `autoupdate`
   module makes the property access throw, which ends the sequence there.
   */
  function ServerStage(modules: Registry): (tail: seq<Action>)
    ensures |tail| > 0
    ensures InitLocalServer(false) in tail <==> ServerCanStart(modules)
    ensures ServerCanStart(modules) ==>
      tail == [SetServerCallbacks, Emit("beforeLocalServerInit", []), InitLocalServer(false), Emit("afterInitialization", [])]
  {
    if !IsInstance(modules, "localServer") then
      [Crash("TypeError: localServer is not a module instance")]
    else if !IsInstance(modules, "autoupdate") then
      [SetServerCallbacks, Emit("beforeLocalServerInit", []), Crash("TypeError: autoupdate is not a module instance")]
    else
      [SetServerCallbacks, Emit("beforeLocalServerInit", []), InitLocalServer(false), Emit("afterInitialization", [])]
  }

  /**
   What `onReady` does once plugins and modules are loaded:
   `beforeDesktopJsLoad`, desktop.js, then the server stage. An exception from
   `loadModules` ends the sequence before any of it.
   */
  function AfterModules(loading: Loading, desktop: Construction): (r: Boot)
    ensures |r.actions| > 0
    ensures InitLocalServer(false) in r.actions <==> !loading.aborted && ServerCanStart(loading.modules)
    ensures InitLocalServer(false) in r.actions ==>
      && |r.actions| >= 5
      && r.actions[0] == Emit("beforeDesktopJsLoad", [])
      && r.actions[|r.actions| - 4..] ==
         [SetServerCallbacks, Emit("beforeLocalServerInit", []), InitLocalServer(false), Emit("afterInitialization", [])]
    ensures loading.aborted ==> r.actions == [Crash("loadModules threw")] && r.modules == loading.modules
  {
    if loading.aborted then
      Boot(loading.modules, [Crash("loadModules threw")])
    else
      var (modules, desktopActions) := LoadDesktopJs(loading.modules, desktop);
      var prefix := [Emit("beforeDesktopJsLoad", [])] + desktopActions;
      assert InitLocalServer(false) !in prefix;
      assert ServerCanStart(modules) == ServerCanStart(loading.modules);
      var tail := ServerStage(modules);
      if ServerCanStart(modules) then
        LastFourKept(prefix, tail);
        Boot(modules, prefix + tail)
      else
        Boot(modules, prefix + tail)
  }

  /** Appending after a prefix keeps the last four actions. */
  lemma LastFourKept(prefix: seq<Action>, tail: seq<Action>)
    requires |tail| >= 4
    ensures (prefix + tail)[|prefix + tail| - 4..] == tail[|tail| - 4..]
    ensures forall a :: a in tail ==> a in prefix + tail
  {
    assert (prefix + tail)[|prefix|..] == tail;
  }

  /** No stage marker of `onReady` is among the notifications of module loading. */
  lemma NoStageMarkers(host: Host, plugins: seq<Plugin>, files: seq<InternalFile>, readdir: Readdir)
    ensures var actions := ModulesLoaded(host, plugins, files, readdir).actions;
      InitLocalServer(false) !in actions && Emit("beforeDesktopJsLoad", []) !in actions
  {
    FailureNotificationsOnly(host, plugins, files, readdir);
  }

  /** `onReady` once the module phase has produced `loading`. */
  function Started(loading: Loading, desktop: Construction): (r: Boot)
    ensures |r.actions| >= 3
    ensures r.actions[0] == Emit("beforePluginsLoad", []) && r.actions[1] == Emit("beforeModulesLoad", [])
  {
    var rest := AfterModules(loading, desktop);
    Boot(rest.modules, [Emit("beforePluginsLoad", []), Emit("beforeModulesLoad", [])] + loading.actions + rest.actions)
  }

  /**
   `onReady`: `beforePluginsLoad`, the plugins, `beforeModulesLoad`, the
   modules, `beforeDesktopJsLoad`, desktop.js, then the server stage.
   */
  function OnReady(host: Host, plugins: seq<Plugin>, files: seq<InternalFile>, readdir: Readdir, desktop: Construction): (r: Boot)
    ensures |r.actions| >= 3
    ensures r.actions[0] == Emit("beforePluginsLoad", []) && r.actions[1] == Emit("beforeModulesLoad", [])
  {
    Started(ModulesLoaded(host, plugins, files, readdir), desktop)
  }

  /**
   When loading completes, `onReady` leaves the plugins whose `require`
   succeeded, the internal modules that are not skipped, the module
   directories that load and, when its constructor succeeds, desktop.js
   registered, and nothing else.
   */
  lemma OnReadyKeys(host: Host, plugins: seq<Plugin>, files: seq<InternalFile>, readdir: Readdir, desktop: Construction)
    ensures !ModulesLoaded(host, plugins, files, readdir).aborted ==>
      OnReady(host, plugins, files, readdir, desktop).modules.Keys ==
      LoadedPluginNames(plugins) + InternalNames(files) + ListedNames(host, readdir)
      + (if desktop == Constructs then {"desktop"} else {})
  {
    var loading := ModulesLoaded(host, plugins, files, readdir);
    assert OnReady(host, plugins, files, readdir, desktop) == Started(loading, desktop);
    StartedKeys(loading, desktop);
    LoadPluginsKeys(map[], plugins);
    if readdir.Listing? {
      ModulesKeys(host, LoadPlugins(map[], plugins), files, readdir.dirs);
    } else {
      InternalKeys(host, LoadPlugins(map[], plugins), files);
    }
  }

  /** Once loading completes, `onReady` adds `desktop` to the registry when desktop.js constructs, and nothing else. */
  lemma StartedKeys(loading: Loading, desktop: Construction)
    ensures !loading.aborted ==>
      Started(loading, desktop).modules.Keys == loading.modules.Keys + (if desktop == Constructs then {"desktop"} else {})
  {
  }

  /** The local server is initialised exactly when module loading completed and both modules it needs are instances. */
  lemma ServerStartsIff(host: Host, plugins: seq<Plugin>, files: seq<InternalFile>, readdir: Readdir, desktop: Construction)
    ensures var loading := ModulesLoaded(host, plugins, files, readdir);
      InitLocalServer(false) in OnReady(host, plugins, files, readdir, desktop).actions <==>
      !loading.aborted && ServerCanStart(loading.modules)
  {
    NoStageMarkers(host, plugins, files, readdir);
  }

  /**
   When the local server is initialised, desktop.js was attempted first, and
   the sequence ends with the callbacks, `beforeLocalServerInit`, the
   initialisation and `afterInitialization`.
   */
  lemma ServerStartSequence(host: Host, plugins: seq<Plugin>, files: seq<InternalFile>, readdir: Readdir, desktop: Construction)
    ensures var actions := OnReady(host, plugins, files, readdir, desktop).actions;
      InitLocalServer(false) in actions ==>
      && actions[|actions| - 4..] ==
         [SetServerCallbacks, Emit("beforeLocalServerInit", []), InitLocalServer(false), Emit("afterInitialization", [])]
      && Emit("beforeDesktopJsLoad", []) in actions
  {
    NoStageMarkers(host, plugins, files, readdir);
    StartedSequence(ModulesLoaded(host, plugins, files, readdir), desktop);
  }

  /** The stages after module loading keep their order behind notifications free of stage markers. */
  lemma StartedSequence(loading: Loading, desktop: Construction)
    requires InitLocalServer(false) !in loading.actions
    ensures var actions := Started(loading, desktop).actions;
      InitLocalServer(false) in actions ==>
      && actions[|actions| - 4..] ==
         [SetServerCallbacks, Emit("beforeLocalServerInit", []), InitLocalServer(false), Emit("afterInitialization", [])]
      && Emit("beforeDesktopJsLoad", []) in actions
  {
    var front := [Emit("beforePluginsLoad", []), Emit("beforeModulesLoad", [])] + loading.actions;
    var rest := AfterModules(loading, desktop).actions;
    assert Started(loading, desktop).actions == front + rest;
    StageKept(front, rest);
  }

  /** Notifications free of stage markers in front of the stages keep the stages' shape. */
  lemma StageKept(front: seq<Action>, rest: seq<Action>)
    requires InitLocalServer(false) !in front
    requires InitLocalServer(false) in rest ==>
      && |rest| >= 5
      && rest[0] == Emit("beforeDesktopJsLoad", [])
      && rest[|rest| - 4..] ==
         [SetServerCallbacks, Emit("beforeLocalServerInit", []), InitLocalServer(false), Emit("afterInitialization", [])]
    ensures var actions := front + rest;
      InitLocalServer(false) in actions ==>
      && actions[|actions| - 4..] ==
         [SetServerCallbacks, Emit("beforeLocalServerInit", []), InitLocalServer(false), Emit("afterInitialization", [])]
      && Emit("beforeDesktopJsLoad", []) in actions
  {
    if InitLocalServer(false) in rest {
      LastFourKept(front, rest);
      assert rest[0] in rest;
    }
  }

  /** An exception from `loadModules` ends `onReady` before desktop.js is attempted. */
  lemma AbortSkipsDesktopJs(host: Host, plugins: seq<Plugin>, files: seq<InternalFile>, readdir: Readdir, desktop: Construction)
    ensures ModulesLoaded(host, plugins, files, readdir).aborted ==>
      Emit("beforeDesktopJsLoad", []) !in OnReady(host, plugins, files, readdir, desktop).actions
  {
    NoStageMarkers(host, plugins, files, readdir);
  }

  /** The only notifications loading modules sends are `moduleLoadFailed`. */
  lemma FailureNotificationsOnly(host: Host, plugins: seq<Plugin>, files: seq<InternalFile>, readdir: Readdir)
    ensures forall a :: a in ModulesLoaded(host, plugins, files, readdir).actions ==>
      a.Emit? && a.event == "moduleLoadFailed"
  {
    var start := LoadPlugins(map[], plugins);
    var internal := LoadInternalModules(host, start, files);
    if !internal.aborted && readdir.Listing? {
      FailureNotifications(host, internal.modules, readdir.dirs);
    }
  }

  /** Whether desktop.js loads has no bearing on whether the local server starts. */
  lemma DesktopJsIsolated(host: Host, plugins: seq<Plugin>, files: seq<InternalFile>, readdir: Readdir)
    ensures InitLocalServer(false) in OnReady(host, plugins, files, readdir, Constructs).actions <==>
            InitLocalServer(false) in OnReady(host, plugins, files, readdir, ConstructorThrows).actions
  {
    ServerStartsIff(host, plugins, files, readdir, Constructs);
    ServerStartsIff(host, plugins, files, readdir, ConstructorThrows);
  }

  /**
   `onServerRestarted`: `beforeLoadUrl` goes out with the new and the old
   port and is awaited. When every listener resolves, or one rejects and the
   warning is logged, the new port is remembered and the root URL reloaded.
   The warning is logged through `log.warning`; when the logger has no such
   method that call throws inside the rejection handler, and neither happens.
   Neither happens either while a listener's promise stays pending.
   */
  function OnServerRestarted(settings: Object, currentPort: Json, port: int, hook: Aggregate, loggerHasWarning: bool): (r: (Json, seq<Action>))
    ensures |r.1| > 0 && r.1[0] == Emit("beforeLoadUrl", [Num(port), currentPort])
    ensures hook.AllResolved? || (hook.Rejected? && loggerHasWarning) ==>
      r.0 == Num(port) && r.1[|r.1| - 1] == LoadUrl(Root) && r.1[1..] == LoadUrlActions(settings, Root)
    ensures hook.Stalls? || (hook.Rejected? && !loggerHasWarning) ==>
      r == (currentPort, [Emit("beforeLoadUrl", [Num(port), currentPort])])
  {
    var announce := Emit("beforeLoadUrl", [Num(port), currentPort]);
    if hook.Stalls? || (hook.Rejected? && !loggerHasWarning) then (currentPort, [announce])
    else (Num(port), [announce] + LoadUrlActions(settings, Root))
  }
}

=== FILE: window.dfy ===
/**
 What `onServerReady` decides before and around creating the main window
 (skeleton/app.js): the window options with the two forced
 `webPreferences` fields, the `meteor://` scheme handler that maps a request
 to a path on the local server, the answer to the scheme registration, and
 `loadURL`.
 */
module Window {
  import opened Js
  import opened Paths
  import opened Effects
  import opened EventBus

  /** `isProduction`: settings.json says `"env": "prod"`. */
  predicate IsProduction(settings: Object) {
    "env" in settings && settings["env"] == Str("prod")
  }

  /** The `in` test is redundant: a missing `env` reads as `undefined`, which is not `"prod"`. */
  lemma ProductionIsEnvProd(settings: Object)
    ensures IsProduction(settings) <==> StrictEquals(Get(settings, "env"), Str("prod"))
  {
  }

  /** The options every window starts from: 800x600, hidden unless the diagnostic variable is set. */
  function DefaultWindowSettings(showOnStartup: bool): Object {
    map["width" := Num(800), "height" := Num(600), "webPreferences" := Obj(map[]), "show" := Bool(showOnStartup)]
  }

  /** The options as the `windowSettings` listeners leave them: defaults, then the user's `window` settings. */
  function Hooked(userWindow: Json, hook: Object -> Object, showOnStartup: bool): Object {
    hook(DefaultWindowSettings(showOnStartup) + OwnEntries(userWindow))
  }

  /** `webPreferences` after the two forced assignments; every other preference is kept. */
  function ForcedPreferences(prefs: Json, preloadPath: string): (r: Object)
    ensures r.Keys == OwnEntries(prefs).Keys + {"nodeIntegration", "preload"}
    ensures r["nodeIntegration"] == Bool(false)
    ensures r["preload"] == Str(preloadPath)
    ensures forall k :: k in OwnEntries(prefs) && k != "nodeIntegration" && k != "preload" ==> r[k] == OwnEntries(prefs)[k]
  {
    OwnEntries(prefs)["nodeIntegration" := Bool(false)]["preload" := Str(preloadPath)]
  }

  /**
   The window options: defaults, overwritten by the user's `window` settings,
   passed through the `windowSettings` listeners (`hook`), and then
   `webPreferences.nodeIntegration` forced to `false` and
   `webPreferences.preload` to the skeleton's preload script. Setting those
   two properties throws when `webPreferences` is not an object by then.
   */
  function WindowSettings(userWindow: Json, hook: Object -> Object, showOnStartup: bool, preloadPath: string): (r: Result<Object>)
    ensures var hooked := Hooked(userWindow, hook, showOnStartup);
      && (r.Success? <==> Get(hooked, "webPreferences").Obj? || Get(hooked, "webPreferences").Arr?)
      && (r.Success? ==>
            && r.value.Keys == hooked.Keys
            && (forall k :: k in hooked && k != "webPreferences" ==> r.value[k] == hooked[k])
            && r.value["webPreferences"] == Obj(ForcedPreferences(hooked["webPreferences"], preloadPath)))
  {
    var hooked := Hooked(userWindow, hook, showOnStartup);
    var prefs := Get(hooked, "webPreferences");
    if !(prefs.Obj? || prefs.Arr?) then Failure("cannot set properties of a non-object webPreferences")
    else Success(hooked["webPreferences" := Obj(ForcedPreferences(prefs, preloadPath))])
  }

  /** With listeners that leave the options alone, the user's `window` settings overwrite the defaults. */
  lemma UntouchedOptions(userWindow: map<string, Json>, showOnStartup: bool)
    ensures Hooked(Obj(userWindow), s => s, showOnStartup) == DefaultWindowSettings(showOnStartup) + userWindow
  {
  }

  /** A preference of the window options, reading `undefined` where the options hold none. */
  function Preference(options: Object, key: string): Json {
    Get(OwnEntries(Get(options, "webPreferences")), key)
  }

  /**
   When the listeners leave the options alone and the user's `webPreferences`
   (if any) is an object, the window gets node integration off and the
   preload script, whatever else the user asked for; `show` is the user's if given.
   */
  lemma NodeIntegrationAlwaysOff(userWindow: map<string, Json>, showOnStartup: bool, preloadPath: string)
    requires "webPreferences" in userWindow ==> userWindow["webPreferences"].Obj? || userWindow["webPreferences"].Arr?
    ensures var r := WindowSettings(Obj(userWindow), s => s, showOnStartup, preloadPath);
      && r.Success?
      && Preference(r.value, "nodeIntegration") == Bool(false)
      && Preference(r.value, "preload") == Str(preloadPath)
      && Get(r.value, "show") == (if "show" in userWindow then userWindow["show"] else Bool(showOnStartup))
  {
    UntouchedOptions(userWindow, showOnStartup);
    var hooked := Hooked(Obj(userWindow), s => s, showOnStartup);
    assert "webPreferences" in hooked && "show" in hooked;
    var forced := ForcedPreferences(hooked["webPreferences"], preloadPath);
    assert WindowSettings(Obj(userWindow), s => s, showOnStartup, preloadPath) ==
           Success(hooked["webPreferences" := Obj(forced)]);
  }

  /** The scheme and host every request of the content view starts with. */
  const Root: string := "meteor://desktop"

  /** The path asked of the local server: the request URL with its first 16 characters removed. */
  function RequestPath(url: string): (path: string)
    ensures forall p :: url == Root + p ==> path == p
    ensures |url| <= |Root| ==> path == ""
  {
    Substr(url, |Root|)
  }

  /** What the scheme handler hands back for one request, and what it logs. */
  datatype Exchange = Exchange(requested: string, response: Option<Json>, errorLog: Option<string>)

  /**
   The `meteor` scheme handler: fetches the stripped path from the local
   server and answers with the response, or, when the fetch is rejected, with
   the server's generic error response, then logs the path and the error.
   Logging calls `toString` on the reason, which throws for `null` and
   `undefined`, so such a rejection is answered but not logged. A fetch that
   never settles is never answered.
   */
  function HandleRequest(url: string, fetch: string -> Settlement, errorResponse: Json): (r: Exchange)
    ensures r.requested == RequestPath(url)
    ensures fetch(r.requested).Fulfills? ==> r.response == Some(fetch(r.requested).value) && r.errorLog.None?
    ensures fetch(r.requested).Rejects? ==> r.response == Some(errorResponse)
    ensures fetch(r.requested).Rejects? && !(fetch(r.requested).reason.Undefined? || fetch(r.requested).reason.Null?) ==>
      r.errorLog.Some? && Contains(r.errorLog.value, r.requested)
    ensures r.errorLog.Some? ==> fetch(r.requested).Rejects?
    ensures fetch(r.requested).Pends? ==> r.response.None? && r.errorLog.None?
  {
    var path := RequestPath(url);
    match fetch(path)
    case Fulfills(response) => Exchange(path, Some(response), None)
    case Rejects(reason) =>
      if reason.Undefined? || reason.Null? then Exchange(path, Some(errorResponse), None)
      else
        var prefix := "error while trying to fetch ";
        var message := prefix + path + ": " + ToPropertyKey(reason);
        assert message[|prefix|..|prefix| + |path|] == path;
        assert IsSubstringAt(message, path, |prefix|);
        Exchange(path, Some(errorResponse), Some(message))
    case Pends => Exchange(path, None, None)
  }

  /** For `"meteor://desktop" + p` the local server is asked for exactly `p`. */
  lemma RequestForRootPath(p: string, fetch: string -> Settlement, errorResponse: Json)
    ensures HandleRequest(Root + p, fetch, errorResponse).requested == p
  {
  }

  /**
   `loadURL`: with `devTools` set outside production (or with `prodDebug`),
   the developer tools open first and the URL loads again once they have.
   */
  function LoadUrlActions(settings: Object, url: string): (actions: seq<Action>)
    ensures |actions| > 0 && actions[|actions| - 1] == LoadUrl(url)
    ensures OpenDevTools in actions <==>
      Truthy(Get(settings, "devTools")) && (!IsProduction(settings) || Truthy(Get(settings, "prodDebug")))
    ensures OpenDevTools in actions ==> actions[0] == OpenDevTools
    ensures forall a :: a in actions ==> a == OpenDevTools || a == LoadUrl(url)
  {
    if Truthy(Get(settings, "devTools")) && (!IsProduction(settings) || Truthy(Get(settings, "prodDebug")))
    then [OpenDevTools, LoadUrl(url), LoadUrl(url)]
    else [LoadUrl(url)]
  }

  /**
   The answer to registering the `meteor` scheme: a truthy error closes the
   window and ends the application through the uncaught exception handler;
   otherwise (no error, or a falsy one) the root URL loads after a short delay.
   */
  function ProtocolRegistered(settings: Object, error: Json): (actions: seq<Action>)
    ensures Truthy(error) ==> Quit in actions && forall u :: LoadUrl(u) !in actions
    ensures !Truthy(error) ==> Quit !in actions && |actions| > 0 && actions[|actions| - 1] == LoadUrl(Root)
    ensures Truthy(error) ==> actions == [CloseWindow, ShowErrorBox("Application"), Quit]
    ensures !Truthy(error) ==> actions == LoadUrlActions(settings, Root)
  {
    if Truthy(error) then [CloseWindow, ShowErrorBox("Application"), Quit]
    else LoadUrlActions(settings, Root)
  }
}
